=== FILE: README.md ===
# axum-template: a Dafny model of the request, discovery and configuration core

This project models the decision logic of a small axum microservice template. The
template registers itself with a Nacos registry, reads its configuration from the
Nacos config center and keeps that configuration hot-reloaded. It authenticates every
request by asking a remote authentication service, which it finds through the
registry. The model covers:

- **Authentication.** `extract_token` turns the `Authorization` header into a bearer
  token. `check_token` calls the authentication service through the generic
  registry-aware HTTP client, whose outcome classification folds every failure after
  instance resolution into one error. `mw_require_auth` builds the `CurrentUser` and
  forwards the request.
- **Service discovery and registration.** This covers the base URL of a discovered
  instance, the derivation of the service's own instance (ip, port) from
  `SERVER_ADDR`, and the same instance used for registration and deregistration. It
  also covers when Nacos clients get credentials and the HTTP auth plugin. The older
  start-up path in `src/main.rs` (shared client properties and a hard-coded service
  name) is modelled next to the newer one in `src/setup/nacos.rs`.
- **The configuration store.** The store is a sequential state machine. A change
  notification whose text parses replaces the stored configuration wholesale. One
  that does not parse leaves the store alone. At start-up, an unparseable initial
  document is fatal instead.
- **Configuration derivation.** `Config::from_env` is modelled over a string map.
  Connection-pool options come from the `database` section.
- **Responses and request gating.** This covers the error-to-HTTP mapping, the
  `ApiResponse` envelope, and the deserialise-then-validate `ValidatedJson`
  extractor. It also covers the app-access endpoints: validation rules, the order of
  the permission check, and the not-found mapping. Last is the configuration echo
  endpoint.

Every foreign call is a function-typed parameter. That covers Nacos instance
selection, registration and deregistration, the HTTP transport, JSON and YAML
parsing, the repository lookup, `check_permission` and the next handler. Where a
property says that a call was or was not made, the operation returns a small trace
record with the request it issued. Examples are `Exchange`, `Attempt`, `AuthRun`,
`GetRun` and `CreateRun`.

The repository's files do not agree on every declaration. `AppError` is therefore the union of
the variants declared in `src/errors.rs` and the `InternalError` and
`Service(ServiceError)` variants the client and extractor code construct. The error
mapping is stated only for the declared variants. The application name and the two
namespaces read by `src/setup/nacos.rs` are absent from `Config` in
`src/config/mod.rs`. They are a separate `NacosIdentity` record. The declaration of
`ServiceError` is not part of this model; it is given the two variants the code
uses. `check_permission` is not modelled: it is any function of the user and the
required authority.

Three consequences of the code are worth stating up front:

- A transport failure reaching the authentication service is reported as
  `Unauthorized`, exactly like a rejected token. The client turns every
  `InternalError` into `Unauthorized`, so transport failures, non-2xx statuses and
  undecodable bodies cannot be told apart from a bad token
  (`AuthClient.CheckTokenOutcomes`).
- A failed instance lookup surfaces as `AppError::Nacos` carrying the registry's
  error (`ServiceClient.DiscoverServiceUrl`).
- A non-2xx answer becomes an error naming the service, the path and the status; the
  upstream body is only logged (`ServiceClient.StatusFailureIgnoresBody`).

## Model

| member | source | states |
|---|---|---|
| Text.Split | src/setup/nacos.rs:61 | `split(':')` always yields at least one piece and no piece contains the separator. The first piece is the prefix ending at the first separator. There is exactly one piece iff the text has no separator |
| Text.JoinSplit | src/setup/nacos.rs:61 | splitting loses nothing: joining the pieces back with the separator restores the text |
| Text.SplitTail | src/setup/nacos.rs:61-63 | the pieces after the first are the split of the text after the first separator |
| Text.FirstTwoPieces | src/setup/nacos.rs:61-63 | in `head:second` optionally followed by more `:`-introduced text, the first two pieces are `head` and `second` |
| Text.ShowInt | src/clients/service_client.rs:199 | the decimal text of an integer is non-empty and starts with a minus sign exactly when the integer is negative |
| Text.DigitsValueShowNat | src/setup/nacos.rs:63 | the decimal text of a natural number reads back as that number |
| Text.ShowIntHasNoSeparator | src/clients/service_client.rs:199 | the decimal text never contains ':' (or any other non-digit other than '-') |
| Text.ParseI32 | src/setup/nacos.rs:63 | `i32::from_str`: an accepted text denotes a value in the i32 range and the empty text is rejected. A run of digits (leading zeros allowed), optionally after a '+', is accepted iff its value is at most 2^31-1, and then denotes that value; after a '-' it is accepted iff its value is at most 2^31, and denotes the negated value |
| Text.ParseSingleChar | src/setup/nacos.rs:63 | a one-character text parses iff it is a digit, to that digit's value, so a lone '+' or '-' is rejected |
| NacosSetup.SignOnlyPortRejected | src/setup/nacos.rs:63 | "<host>:+" and "<host>:-" are invalid ports naming the sign |
| Text.ParseShowI32 | src/setup/nacos.rs:63 | parsing the decimal text of any i32 value gives that value back |
| Text.ParseRejectsNonDigit | src/setup/nacos.rs:63 | a text with a non-digit anywhere except a leading sign is rejected |
| Text.ShowIntInjective | src/services/kms_app_access_service.rs:29 | distinct integers have distinct decimal texts |
| Errors.IntoResponse | src/errors.rs:56-80 | NotFound, BadRequest and Unauthorized map to 404, 400 and 401 (each iff) with their message verbatim. The six infrastructure variants map to 500 (iff) with a per-variant prefix before the wrapped text. The body's code equals the status |
| Errors.IntoResponseStatuses | src/errors.rs:58-68 | the mapping is total over its variants and yields only 400, 401, 404 or 500 |
| Errors.InfrastructureMessagePrefixed | src/errors.rs:59-64 | every infrastructure error's body message starts with its variant's fixed prefix |
| Response.Success | src/response.rs:31-37 | `success(d)` has code 0, message "success" and data present and equal to `d` |
| Response.Error | src/response.rs:42-48 | `error(c, m)` carries `c` and `m` verbatim and no data |
| Response.Serialize | src/response.rs:14-25 | the envelope renders `code` and `msg` first, then a `data` member holding the data when present; absent data adds no member at all (no `null`) |
| Response.SerializeOmitsAbsentData | src/response.rs:23-24 | the serialised envelope has a `data` member iff data is present, and then holds it; `code` and `msg` come first |
| Response.SuccessAndErrorDataRendering | src/response.rs:31-48 | a success envelope always serialises its data; an error envelope never does |
| EnvConfig.FromEnv | src/config/mod.rs:41-66 | loading succeeds iff NACOS_ADDR, NACOS_CONFIG_DATA_ID and AUTH_SERVICE_NAME are all set, and copies them. DATABASE_URL, NACOS_USERNAME and NACOS_PASSWORD are each present iff set. SERVER_ADDR, NACOS_NAMESPACE and NACOS_CONFIG_GROUP default to "0.0.0.0:4000", "" and "DEFAULT_GROUP" |
| EnvConfig.FromEnvToEnv | src/config/mod.rs:55-65 | round trip: loading the environment that describes any configuration yields that configuration, so every present variable is copied verbatim |
| EnvConfig.ToEnvFromEnv | src/config/mod.rs:45-54 | converse round trip: every variable the loader reads and finds is reproduced unchanged by the configuration it builds |
| DatabaseSetup.PoolOptions | src/setup/database.rs:15-35 | a missing section and a missing url are errors, the section checked first. Otherwise the url is passed verbatim, max connections is the pool size or 5, min connections is 1, and both timeouts are 8 s |
| DatabaseSetup.PoolOptionsOnlyReadsDatabase | src/setup/database.rs:15-23 | configurations agreeing on the `database` section give identical options or errors |
| DatabaseSetup.ZeroPoolSizePassesThrough | src/setup/database.rs:29-32 | a pool size of 0 is used as is; there is no lower bound |
| NacosSetup.Credentials | src/setup/nacos.rs:24-26 | credentials are attached iff both username and password are configured, and are exactly that pair |
| NacosSetup.NamingClientSpec | src/setup/nacos.rs:17-35 | the naming client uses the naming namespace, the server address and the app name. Its credentials are present iff both are set, and are then exactly (username, password); the auth plugin is on iff a username is set |
| NacosSetup.ConfigClientSpec | src/setup/nacos.rs:38-56 | the config client: the same rules with the config namespace, credentials exactly (username, password) when both are set |
| NacosSetup.ClientsDifferOnlyInNamespace | src/setup/nacos.rs:17-56 | the two client specifications are equal once the namespace is exchanged |
| NacosSetup.UsernameAloneEnablesPluginOnly | src/setup/nacos.rs:24-33 | a username without a password enables the auth plugin but sends no credentials |
| NacosSetup.InstanceFromServerAddr | src/setup/nacos.rs:61-63 | a derived instance's ip is exactly the text before the first ':' (all of it when there is none), so the "127.0.0.1" fallback is never used, and its port is an i32. A failure is always an invalid port, happens only when the address has a ':', and names a ':'-free text that does not parse as an i32 |
| NacosSetup.PortTextDecides | src/setup/nacos.rs:61-63 | for `ip:portText` optionally followed by a second ':' and anything, the outcome is decided by `portText` alone: the instance (ip, value) when it parses as an i32, otherwise the invalid port naming it |
| NacosSetup.NoColonUsesDefaultPort | src/setup/nacos.rs:61-63 | without a ':' the whole address is the ip and the port is 3000 |
| NacosSetup.AddressRoundTrip | src/setup/nacos.rs:61-63 | `ip:port` with a ':'-free ip and any i32 port derives exactly that ip and port, whatever follows a second ':' |
| NacosSetup.UnparseablePortRejected | src/setup/nacos.rs:63 | a port text (between the first and a possible second ':') that does not parse as an i32 is an invalid-port error naming that text, whatever follows the second ':' |
| NacosSetup.LeadingZerosPort | src/setup/nacos.rs:63 | "<host>:0080" derives port 80, since the integer parser accepts leading zeros |
| NacosSetup.PlusSignPort | src/setup/nacos.rs:63 | "<host>:+80" derives port 80, since the integer parser accepts a leading '+' |
| NacosSetup.SecondColonCutsPort | src/setup/nacos.rs:61-63 | "<host>:abc:1" is the invalid port "abc": only the text before a second ':' is the port, and the valid-looking "1" after it is ignored |
| NacosSetup.MalformedPortsRejected | src/setup/nacos.rs:63-76 | "<host>:" and "<host>:abc" are rejected by the derivation as invalid ports, before any registry call |
| NacosSetup.CallForDerivedInstance | src/setup/nacos.rs:61-76 | a call is issued iff the address derives an instance, and carries the service name, no group and that instance. An invalid port is returned as such with nothing sent. Success iff the registry accepts the call, and a refusal carries the registry's text |
| NacosSetup.RegisterInstance | src/setup/nacos.rs:59-83 | a registry call is issued iff the address derives an instance. The call carries the app name, no group and that instance, and registration succeeds iff the registry accepts it |
| NacosSetup.DeregisterInstance | src/setup/nacos.rs:88-107 | the same derivation and call shape for deregistration |
| NacosSetup.RegisterDeregisterAgree | src/setup/nacos.rs:61-103 | register and deregister issue the identical call for the same configuration, or neither issues one |
| NacosSetup.Notify | src/setup/nacos.rs:120-146 | content that parses replaces the store wholesale with the parsed value; content that does not leaves it unchanged |
| NacosSetup.Replay | src/setup/nacos.rs:120-146 | notifications applied in arrival order leave the store holding the initial configuration or one a notification carried, and the initial one whenever none parsed |
| NacosSetup.LatestParsed | src/setup/nacos.rs:132-143 | reference description of the store: the latest notification that parsed; absent iff none parsed |
| NacosSetup.ReplaySnoc | src/setup/nacos.rs:120-146 | applying notifications one by one in arrival order: the store after `ns + [n]` is `notify` applied to the store after `ns` |
| NacosSetup.ReplayHoldsLatestParsed | src/setup/nacos.rs:132-143 | after any run of notifications the store holds the latest parsed configuration, or the initial one if none parsed |
| NacosSetup.NotifyIgnoresMetadata | src/setup/nacos.rs:122-127 | the data id and group of a notification never influence the store |
| Bootstrap.SharedClientProps | src/main.rs:118-128 | the older client properties use the server address, the single namespace and the hard-coded name "axum-template-service"; credentials are present iff both are set, and are then exactly (username, password) |
| Bootstrap.SharedClientSpec | src/main.rs:130-160 | both older clients are built from exactly the shared properties (address, single namespace, hard-coded name, credentials) and get the auth plugin iff a username is set, so credentials never come without the plugin |
| Bootstrap.SharedSpecCoincides | src/main.rs:118-160 | the older clients equal the newer ones when the app name and both namespaces take the older values |
| Bootstrap.RegisterHardcoded | src/main.rs:164-188 | the older registration uses the same instance derivation, the hard-coded service name and no group; nothing is sent for an invalid port |
| Bootstrap.RegistrationsAgreeOnInstance | src/main.rs:166-181 | the older and newer registrations are identical when the app name is the hard-coded one |
| Bootstrap.InitialConfig | src/main.rs:58-64 | the store is seeded iff the initial document parses, with exactly the parsed value |
| Bootstrap.StoreAfter | src/main.rs:58-64 | start-up succeeds iff the initial document parses, and otherwise aborts with the parser's message. Once started, the store holds the initial configuration or one a notification carried |
| Bootstrap.ParseFailureFatalOnlyAtStartup | src/main.rs:58-59 | unparseable text aborts start-up, but the same text arriving later as a notification leaves a running store unchanged |
| Bootstrap.StoreHoldsLatest | src/main.rs:200-228 | once started, the store holds the latest parsed notification or the initial configuration |
| ServiceClient.DiscoverServiceUrl | src/clients/service_client.rs:186-200 | a failed lookup is the registry's error as a Nacos error; otherwise the URL is `http://ip:port` of the selected instance |
| ServiceClient.BaseUrlDeterminesInstance | src/clients/service_client.rs:199 | the base URL identifies the instance: equal URLs (for ':'-free ips) mean equal ip and port |
| ServiceClient.Classify | src/clients/service_client.rs:99-128 | the call succeeds iff the transport answered with a 2xx status and the body decodes, and then returns the decoded value. A transport failure, a non-2xx status and an undecodable body each give InternalError with their message; every failure is InternalError |
| ServiceClient.StatusFailureIgnoresBody | src/clients/service_client.rs:117-127 | a non-2xx outcome depends on the status only, never on the upstream body |
| ServiceClient.GetServiceWithGroup | src/clients/service_client.rs:81-129 | the lookup uses the service and group. A failed lookup returns the Nacos error and sends nothing. Otherwise exactly one GET of base URL + path with the query is sent, and its answer is classified |
| ServiceClient.PostServiceWithGroup | src/clients/service_client.rs:131-183 | the same for POST, with the JSON body attached |
| ServiceClient.GetAndPostClassifyAlike | src/clients/service_client.rs:99-182 | GET and POST look up the same instance, send to the same URL and query, and come to the same result whenever the transport answers alike |
| ServiceClient.GetService | src/clients/service_client.rs:15-25 | a GET call in the default group with an empty query |
| ServiceClient.GetServiceWithQuery | src/clients/service_client.rs:29-41 | a GET call in the default group with the given query |
| ServiceClient.PostService | src/clients/service_client.rs:45-57 | a POST call in the default group with an empty query |
| ServiceClient.PostServiceWithQuery | src/clients/service_client.rs:61-75 | a POST call in the default group with the given query |
| AuthClient.DecodeAuthority | src/clients/auth_client.rs:25-28 | an authority decodes iff its one declared field (the `authority` member of an object, or the single element of a one-element array) is a string, and it is then that string |
| AuthClient.DecodeAuthorities | src/clients/auth_client.rs:23-28 | an authority list decodes iff every element does, preserving order and length |
| AuthClient.DecodeEncodeAuthorities | src/clients/auth_client.rs:23-28 | round trip of the authority list through its JSON shape |
| AuthClient.DecodeUserInfo | src/clients/auth_client.rs:18-24 | a user info decodes iff its three declared fields (by name from an object, `user_id` read from `id`, or by position from a three-element array) are two strings and a list whose every element decodes; they then give id, username and authorities in order |
| AuthClient.DecodeAuthResponse | src/clients/auth_client.rs:14-17 | a response decodes only from an object or a one-element array. An object decodes iff it has a single `user_info` member whose value decodes, giving that user info; a one-element array whose element decodes gives that user info |
| AuthClient.UnknownMembersIgnored | src/clients/auth_client.rs:14-17 | members other than `user_info`, in any position, do not change the decoded response |
| AuthClient.DecodeEncodeAuthResponse | src/clients/auth_client.rs:14-28 | round trip: the decoder recovers any response from `{"user_info": {"id", "username", "authorities": [{"authority"}]}}`, with JSON `id` bound to the user id |
| AuthClient.DecodeArrayAuthResponse | src/clients/auth_client.rs:14-28 | round trip through serde's sequence form of the structs, `[["id", "username", [["authority"]]]]`, which the derived decoders also accept |
| AuthClient.DecodeBody | src/clients/service_client.rs:112-115 | the body decodes iff it is JSON text whose value has the response's shape, and then gives that response; a JSON syntax error keeps its own text |
| AuthClient.RemapError | src/clients/auth_client.rs:57-66 | a success passes unchanged; every InternalError becomes Unauthorized; every other error passes unchanged |
| AuthClient.CheckToken | src/clients/auth_client.rs:33-67 | the check looks up the configured service in the default group and sends GET `/token/check_token` with the single query pair ("token", token). A failed lookup gives the Nacos error; a success is the decoded response unchanged; any later failure is Unauthorized |
| AuthClient.CheckTokenOutcomes | src/clients/auth_client.rs:57-66 | the five outcomes: lookup failure → Nacos error; transport failure, non-2xx and undecodable body → Unauthorized alike; decoded body → that response |
| AuthClient.UnauthorizedIffLookupSucceededAndCallFailed | src/clients/auth_client.rs:57-66 | Unauthorized iff the lookup succeeded and the call failed, so a lookup failure is never reported as Unauthorized |
| AuthMiddleware.HeaderText | src/middleware/auth.rs:72 | a header value is text iff every byte is a tab or printable ASCII, and then the text has the same characters |
| AuthMiddleware.ExtractToken | src/middleware/auth.rs:69-84 | extraction succeeds iff the header is present, is visible ASCII and starts with exactly "Bearer ". The token is then the rest of the value, possibly empty; every failure is Unauthorized |
| AuthMiddleware.ExtractBearerToken | src/middleware/auth.rs:78-83 | round trip: a header "Bearer " + t (t visible ASCII, possibly empty) extracts exactly t |
| AuthMiddleware.OtherSchemesRejected | src/middleware/auth.rs:78-81 | "Basic xyz" and "bearer xyz" are rejected |
| AuthMiddleware.Permissions | src/middleware/auth.rs:48-51 | the permissions are the authority strings, same length, same order, duplicates kept |
| AuthMiddleware.ToCurrentUser | src/middleware/auth.rs:48-57 | the user's id and username are copied from the user info, and its permissions are the authorities in order |
| AuthMiddleware.RequireAuth | src/middleware/auth.rs:33-64 | the token is checked iff extraction succeeded, and the check is exactly CheckToken of that token. A failed check's error is returned unchanged. The request is forwarded iff the check succeeded, then exactly once, carrying the built user, and the next handler's response is the result |
| AuthMiddleware.AcceptedRequestCarriesUser | src/middleware/auth.rs:40-63 | end to end: "Bearer t", a healthy instance and a 2xx body encoding a response forward the request with that response's user, after a check sending exactly ("token", t) |
| AuthMiddleware.RejectedRequestNotForwarded | src/middleware/auth.rs:40-63 | a request fails iff it is not forwarded |
| ValidatedJson.FromRequest | src/utils/validated_json.rs:35-57 | a body rejection gives InvalidArgument prefixed "JSON 格式错误: ". A payload breaking a rule gives InvalidArgument prefixed "请求参数不合法: ". Success iff the payload deserialised and is valid, and then it is returned unchanged |
| ValidatedJson.RejectionIgnoresValidator | src/utils/validated_json.rs:39-53 | validation is never consulted for a body that failed to deserialise |
| KmsAppAccess.GetAppAccessById | src/services/kms_app_access_service.rs:14-31 | the repository is asked for the id itself. A found row is returned unchanged, an absent row is NotFound naming the id, and a repository error is DatabaseError, never NotFound |
| KmsAppAccess.NotFoundMessageNamesId | src/services/kms_app_access_service.rs:29 | distinct ids produce distinct not-found messages |
| KmsAppAccess.GetAppAccessHandler | src/handlers/kms_app_access_handler.rs:42-60 | the view permission is checked first, and a refusal returns its error without any lookup. Otherwise the id is looked up, and the result is the row in a success envelope or the lookup's error |
| KmsAppAccess.ValidateCreate | src/handlers/kms_app_access_handler.rs:62-74 | the name violation is reported iff the name is empty, and the description violation iff a description longer than 50 characters is present; nothing else is reported |
| KmsAppAccess.ValidCreateRequests | src/handlers/kms_app_access_handler.rs:67-73 | a request is valid iff its name is non-empty and its description is absent or at most 50 characters |
| KmsAppAccess.CreateAppAccessHandler | src/handlers/kms_app_access_handler.rs:77-107 | an invalid or undeserialisable body fails before the permission check. A valid one reaches the add-permission check, whose refusal is returned; otherwise the result is an empty success envelope |
| KmsAppAccess.InvalidBodyBeatsPermission | src/handlers/kms_app_access_handler.rs:81-85 | an over-long description is an InvalidArgument whatever the user's permissions, and the permission is never consulted |
| HelloHandler.HelloFromNacosConfig | src/handlers/hello_handler.rs:30-69 | the result has code 0. Its message is the greeting or "Default Greeting from Code"; the log level is copied including absence; the dashboard flag is absent without feature flags, else the configured flag |
| HelloHandler.HelloSeesOnlyItsFields | src/handlers/hello_handler.rs:42-53 | snapshots agreeing on greeting, log level and dashboard flag give identical answers |
| HelloHandler.HelloReportsLatestParsed | src/handlers/hello_handler.rs:37-53 | after any run of notifications the endpoint reports the latest configuration that parsed, or the initial one |

## Left out

- Nacos SDK calls (instance selection, register, deregister, `get_config`, `add_listener`), the reqwest transport, JSON and YAML parsing, the repository query and `check_permission` are caller-supplied functions; their own behaviour is not modelled.
- Concurrency: the store is updated one notification at a time in arrival order. The `RwLock` and the possibility that spawned updates finish out of order are not modelled.
- Start-up orchestration and I/O in src/main.rs and src/setup/mod.rs (logging initialisation, listener bind, serve, `tokio::join!`) and the client builders' `build()` failures are not modelled.
- The `.env` file loading is not modelled: the environment map is taken as already merged.
- EnvConfig.FromEnv: a variable set to non-Unicode bytes (`VarError::NotUnicode`) is not modelled. Such a value reads as absent for the optional and defaulted variables and as an error for the required ones. The error does not say which variable is missing.
- The Redis setup and handler, the HTTP client builder constants (including its 10 s timeout), the router, the logging middleware, the health handler, the entity model and the repository's SeaORM query are not modelled.
- Opening the database connection and the `sqlx` logging flags' effect are not modelled; only the options handed to the connect call are.
- ServiceClient.Classify: the status failure message renders the status as its number only, while the status's display form also appends the canonical reason phrase (for example "404 Not Found").
- Text.ParseI32: the error kind (empty, invalid digit, overflow) is not distinguished, since the caller only propagates it.
- The wording of library error texts (serde, Nacos, database, YAML) is represented by an opaque string; only the prefixes and fields the service adds are modelled.
- AuthMiddleware.ExtractToken: only the first value of a repeated `Authorization` header is looked at; header name case-insensitivity is assumed already applied by the framework's map.
- AuthMiddleware.RequireAuth: of the request's extensions only the inserted `CurrentUser` is modelled; other extensions and the body pass through untouched.
- KmsAppAccess.GetAppAccessHandler: the id is any integer; the rejection of path text that is not an `i64` happens in the framework before the handler and is not modelled.
- HelloHandler.HelloFromNacosConfig: reading the snapshot under the read lock is modelled as a pure function of the snapshot, which is why it cannot modify the store.
- Log messages are not modelled.

=== FILE: app_specific.dfy ===
/** The application configuration document held in the config center
    (src/config/app_specific.rs). Every field is optional; parsing the YAML text into
    this shape is the YAML library's job and appears in the model only as a
    caller-supplied partial function (`Parser`). */
module AppSpecific {
  import opened Wrappers

  type U32 = x: int | 0 <= x < 0x1_0000_0000
  type U64 = x: int | 0 <= x < 0x1_0000_0000_0000_0000

  datatype DatabaseConfig = DatabaseConfig(url: Option<string>, poolSize: Option<U32>)

  datatype FeatureFlags = FeatureFlags(
    newDashboardEnabled: Option<bool>,
    experimentalFeatureX: Option<bool>)

  datatype ServiceConfig = ServiceConfig(timeoutMs: Option<U64>, retryAttempts: Option<U32>)

  datatype AppSpecificConfig = AppSpecificConfig(
    greeting: Option<string>,
    logLevel: Option<string>,
    database: Option<DatabaseConfig>,
    featureFlags: Option<FeatureFlags>,
    service: Option<ServiceConfig>)

  /** The YAML parse error; its text is only ever logged. */
  datatype ParseError = ParseError(detail: string)

  /** `parse_nacos_config`: YAML text to a configuration, or a parse error. */
  type Parser = string -> Result<AppSpecificConfig, ParseError>
}

=== FILE: auth_client.dfy ===
/** The token-check client of the authentication service (src/clients/auth_client.rs):
    a GET of a fixed path on the configured service, with every failure after instance
    resolution reported as "unauthorised". */
module AuthClient {
  import opened Wrappers
  import opened Errors
  import opened Json
  import opened ServiceClient

  datatype Authority = Authority(authority: string)

  /** `UserInfo`; the JSON member `id` is bound to `userId`. */
  datatype UserInfo = UserInfo(userId: string, username: string, authorities: seq<Authority>)

  datatype AuthResponse = AuthResponse(userInfo: UserInfo)

  const CheckTokenPath := "/token/check_token"

  // ---------------------------------------------------------------------------
  // Expected response shape
  // ---------------------------------------------------------------------------

  /** The derived decoder of `Authority`: `{"authority": s}`, or `[s]` in serde's
      sequence form. */
  function DecodeAuthority(j: Json): (r: Option<Authority>)
    ensures r.Some? && j.JObj? ==> Field(j, "authority") == Some(JStr(r.value.authority))
    ensures r.Some? && j.JArr? ==> j.items == [JStr(r.value.authority)]
    ensures r.Some? ==> j.JObj? || j.JArr?
    ensures r.Some? <==> StructFields(j, ["authority"]).Some? && StructFields(j, ["authority"]).value[0].JStr?
  {
    var fs :- StructFields(j, ["authority"]);
    match fs[0]
    case JStr(a) => Some(Authority(a))
    case _ => None
  }

  /** A JSON array of authorities, every element of which must decode. */
  function DecodeAuthorities(items: seq<Json>): (r: Option<seq<Authority>>)
    ensures r.Some? ==> |r.value| == |items|
    ensures r.Some? ==> forall i :: 0 <= i < |items| ==> DecodeAuthority(items[i]) == Some(r.value[i])
    ensures r.None? ==> exists i :: 0 <= i < |items| && DecodeAuthority(items[i]).None?
    decreases |items|
  {
    if |items| == 0 then Some([])
    else
      var first :- DecodeAuthority(items[0]);
      var rest :- DecodeAuthorities(items[1..]);
      Some([first] + rest)
  }

  /** The declared fields of `UserInfo`, in order; `user_id` is renamed to `id`. */
  const UserInfoKeys := ["id", "username", "authorities"]

  /** The derived decoder of `UserInfo`: the two strings and the authority list, by
      name from an object or by position from a three-element array. */
  function DecodeUserInfo(j: Json): (r: Option<UserInfo>)
    ensures r.Some? ==>
      && StructFields(j, UserInfoKeys).Some?
      && StructFields(j, UserInfoKeys).value[0] == JStr(r.value.userId)
      && StructFields(j, UserInfoKeys).value[1] == JStr(r.value.username)
      && StructFields(j, UserInfoKeys).value[2].JArr?
      && DecodeAuthorities(StructFields(j, UserInfoKeys).value[2].items) == Some(r.value.authorities)
    ensures var fs := StructFields(j, UserInfoKeys);
      r.Some? <==>
        && fs.Some? && fs.value[0].JStr? && fs.value[1].JStr? && fs.value[2].JArr?
        && DecodeAuthorities(fs.value[2].items).Some?
  {
    var fs :- StructFields(j, UserInfoKeys);
    match (fs[0], fs[1], fs[2])
    case (JStr(id), JStr(username), JArr(list)) =>
      var authorities :- DecodeAuthorities(list);
      Some(UserInfo(id, username, authorities))
    case _ => None
  }

  /** The derived decoder of `AuthResponse`: the user info under `user_info`, or as
      the single element of an array. */
  function DecodeAuthResponse(j: Json): (r: Option<AuthResponse>)
    ensures r.Some? ==> j.JObj? || (j.JArr? && |j.items| == 1)
    ensures r.Some? && j.JObj? ==> Field(j, "user_info").Some? && DecodeUserInfo(Field(j, "user_info").value) == Some(r.value.userInfo)
    ensures j.JArr? && |j.items| == 1 && DecodeUserInfo(j.items[0]).Some? ==>
      r == Some(AuthResponse(DecodeUserInfo(j.items[0]).value))
    ensures j.JObj? ==>
      (r.Some? <==> Field(j, "user_info").Some? && DecodeUserInfo(Field(j, "user_info").value).Some?)
  {
    var fs :- StructFields(j, ["user_info"]);
    var userInfo :- DecodeUserInfo(fs[0]);
    Some(AuthResponse(userInfo))
  }

  /** The body the authentication service is expected to send for a response. */
  function EncodeAuthResponse(r: AuthResponse): Json
  {
    var u := r.userInfo;
    JObj([("user_info", JObj([
      ("id", JStr(u.userId)),
      ("username", JStr(u.username)),
      ("authorities", JArr(EncodeAuthorities(u.authorities)))]))])
  }

  function EncodeAuthorities(auths: seq<Authority>): (items: seq<Json>)
    ensures |items| == |auths|
    ensures forall i :: 0 <= i < |auths| ==> items[i] == JObj([("authority", JStr(auths[i].authority))])
    decreases |auths|
  {
    if |auths| == 0 then []
    else [JObj([("authority", JStr(auths[0].authority))])] + EncodeAuthorities(auths[1..])
  }

  lemma {:induction false} DecodeEncodeAuthorities(auths: seq<Authority>)
    ensures DecodeAuthorities(EncodeAuthorities(auths)) == Some(auths)
    decreases |auths|
  {
    if |auths| > 0 {
      var items := EncodeAuthorities(auths);
      ValuesOfDistinct([("authority", JStr(auths[0].authority))], "authority", 0);
      assert DecodeAuthority(items[0]) == Some(auths[0]);
      assert items[1..] == EncodeAuthorities(auths[1..]);
      DecodeEncodeAuthorities(auths[1..]);
      assert [auths[0]] + auths[1..] == auths;
    }
  }

  /** Round trip: the decoder recovers any response from the documented shape, `id`
      included. */
  lemma DecodeEncodeAuthResponse(r: AuthResponse)
    ensures DecodeAuthResponse(EncodeAuthResponse(r)) == Some(r)
  {
    var info := EncodeAuthResponse(r).members[0].1;
    ValuesOfDistinct([("user_info", info)], "user_info", 0);
    assert StructFields(EncodeAuthResponse(r), ["user_info"]) == Some([info]);
    DecodeEncodeUserInfo(r.userInfo);
  }

  lemma DecodeEncodeUserInfo(u: UserInfo)
    ensures DecodeUserInfo(EncodeAuthResponse(AuthResponse(u)).members[0].1) == Some(u)
  {
    var list := JArr(EncodeAuthorities(u.authorities));
    var members := [("id", JStr(u.userId)), ("username", JStr(u.username)), ("authorities", list)];
    assert EncodeAuthResponse(AuthResponse(u)).members[0].1 == JObj(members);
    UserInfoObjectFields(members);
    DecodeEncodeAuthorities(u.authorities);
  }

  /** An object carrying each declared field of `UserInfo` once yields those values. */
  lemma UserInfoObjectFields(members: seq<(string, Json)>)
    requires |members| == 3
    requires members[0].0 == "id" && members[1].0 == "username" && members[2].0 == "authorities"
    ensures StructFields(JObj(members), UserInfoKeys) == Some([members[0].1, members[1].1, members[2].1])
  {
    ValuesOfDistinct(members, "id", 0);
    ValuesOfDistinct(members, "username", 1);
    ValuesOfDistinct(members, "authorities", 2);
    assert UserInfoKeys[0] == "id" && UserInfoKeys[1] == "username" && UserInfoKeys[2] == "authorities";
    var fields := StructFields(JObj(members), UserInfoKeys);
    assert fields.Some?;
    assert fields.value[0] == members[0].1 && fields.value[1] == members[1].1 && fields.value[2] == members[2].1;
    assert |fields.value| == 3;
    assert fields.value == [members[0].1, members[1].1, members[2].1];
  }

  /** Members other than `user_info` are ignored, wherever `user_info` sits among
      them: the response is decoded from its value alone. */
  lemma UnknownMembersIgnored(members: seq<(string, Json)>, i: nat)
    requires i < |members| && members[i].0 == "user_info"
    requires forall k :: 0 <= k < |members| && k != i ==> members[k].0 != "user_info"
    ensures DecodeAuthResponse(JObj(members)) == DecodeAuthResponse(JObj([("user_info", members[i].1)]))
  {
    ValuesOfDistinct(members, "user_info", i);
    ValuesOfDistinct([("user_info", members[i].1)], "user_info", 0);
  }

  /** The same response in serde's sequence form: every struct an array of its field
      values in declaration order. */
  function EncodeAuthResponseAsArrays(r: AuthResponse): Json
  {
    var u := r.userInfo;
    JArr([JArr([JStr(u.userId), JStr(u.username), JArr(EncodeAuthoritiesAsArrays(u.authorities))])])
  }

  function EncodeAuthoritiesAsArrays(auths: seq<Authority>): (items: seq<Json>)
    ensures |items| == |auths|
    ensures forall i :: 0 <= i < |auths| ==> items[i] == JArr([JStr(auths[i].authority)])
    decreases |auths|
  {
    if |auths| == 0 then []
    else [JArr([JStr(auths[0].authority)])] + EncodeAuthoritiesAsArrays(auths[1..])
  }

  lemma {:induction false} DecodeArrayAuthorities(auths: seq<Authority>)
    ensures DecodeAuthorities(EncodeAuthoritiesAsArrays(auths)) == Some(auths)
    decreases |auths|
  {
    if |auths| > 0 {
      var items := EncodeAuthoritiesAsArrays(auths);
      assert DecodeAuthority(items[0]) == Some(auths[0]);
      assert items[1..] == EncodeAuthoritiesAsArrays(auths[1..]);
      DecodeArrayAuthorities(auths[1..]);
      assert [auths[0]] + auths[1..] == auths;
    }
  }

  /** The decoder also accepts the sequence form, as serde's derived decoders do, and
      recovers the same response from it. */
  lemma DecodeArrayAuthResponse(r: AuthResponse)
    ensures DecodeAuthResponse(EncodeAuthResponseAsArrays(r)) == Some(r)
  {
    DecodeArrayAuthorities(r.userInfo.authorities);
  }

  /** `response.json::<AuthResponse>()`: the JSON library's text parser followed by
      the shape decoder; a parse error's text is kept, and a shape mismatch is an
      error of its own. */
  function DecodeBody(parseJson: string -> Result<Json, string>, body: string): (r: Result<AuthResponse, string>)
    ensures parseJson(body).Failure? ==> r == Failure(parseJson(body).error)
    ensures r.Success? <==> parseJson(body).Success? && DecodeAuthResponse(parseJson(body).value).Some?
    ensures r.Success? ==> r.value == DecodeAuthResponse(parseJson(body).value).value
  {
    match parseJson(body)
    case Failure(e) => Failure(e)
    case Success(j) =>
      match DecodeAuthResponse(j)
      case Some(r) => Success(r)
      case None => Failure("response does not match AuthResponse")
  }

  /** The response decoder as the service client uses it. */
  function ResponseDecoder(parseJson: string -> Result<Json, string>): Decoder<AuthResponse>
  {
    body => DecodeBody(parseJson, body)
  }

  // ---------------------------------------------------------------------------
  // check_token
  // ---------------------------------------------------------------------------

  /** The error remapping after the call: any `InternalError` becomes
      `Unauthorized`; every other error passes through unchanged. */
  function RemapError(r: Result<AuthResponse, AppError>): (out: Result<AuthResponse, AppError>)
    ensures r.Success? ==> out == r
    ensures r.Failure? && r.error.InternalError? ==> out == Failure(Service(ServiceError.Unauthorized))
    ensures r.Failure? && !r.error.InternalError? ==> out == r
  {
    match r
    case Success(v) => Success(v)
    case Failure(InternalError(_)) => Failure(Service(ServiceError.Unauthorized))
    case Failure(e) => Failure(e)
  }

  /** `check_token`: GET `/token/check_token?token=<token>` on the configured auth
      service in the default group. A decoded response is returned unchanged; a
      failed lookup returns the Nacos error; everything that goes wrong after the
      lookup is `Unauthorized`. */
  function CheckToken(net: Network, decode: Decoder<AuthResponse>, authServiceName: string, token: string): (x: Exchange<AuthResponse>)
    ensures x.lookup == LookupKey(authServiceName, None)
    ensures x.sent.None? <==> net.selectHealthy(x.lookup).Failure?
    ensures x.sent.Some? ==>
      x.sent.value == HttpRequest(Get, BaseUrl(net.selectHealthy(x.lookup).value) + CheckTokenPath, [("token", token)], None)
    ensures x.sent.None? ==> x.result == Failure(Nacos(net.selectHealthy(x.lookup).error))
    ensures x.result.Success? ==>
      && x.sent.Some? && net.send(x.sent.value).Success?
      && decode(net.send(x.sent.value).value.body).Success?
      && x.result.value == decode(net.send(x.sent.value).value.body).value
    ensures x.sent.Some? && x.result.Failure? ==> x.result.error == Service(ServiceError.Unauthorized)
  {
    var call := GetServiceWithQuery(net, decode, authServiceName, CheckTokenPath, [("token", token)]);
    call.(result := RemapError(call.result))
  }

  /** The five outcomes of a token check, and how they collapse: a failed lookup is a
      Nacos error; a transport failure, a non-2xx status and an undecodable 2xx body
      are all `Unauthorized` alike; a decodable 2xx body is the response. */
  lemma CheckTokenOutcomes(net: Network, decode: Decoder<AuthResponse>, authServiceName: string, token: string)
    ensures var key := LookupKey(authServiceName, None);
      var x := CheckToken(net, decode, authServiceName, token);
      && (net.selectHealthy(key).Failure? ==> x.result == Failure(Nacos(net.selectHealthy(key).error)))
      && (net.selectHealthy(key).Success? ==>
            var sent := net.send(x.sent.value);
            && (sent.Failure? ==> x.result == Failure(Service(ServiceError.Unauthorized)))
            && (sent.Success? && !IsSuccessStatus(sent.value.status) ==>
                  x.result == Failure(Service(ServiceError.Unauthorized)))
            && (sent.Success? && IsSuccessStatus(sent.value.status) && decode(sent.value.body).Failure? ==>
                  x.result == Failure(Service(ServiceError.Unauthorized)))
            && (sent.Success? && IsSuccessStatus(sent.value.status) && decode(sent.value.body).Success? ==>
                  x.result == Success(decode(sent.value.body).value)))
  {
  }

  /** A token check is `Unauthorized` exactly when the instance lookup succeeded and
      the call did not produce a response; a Nacos lookup error is never reported as
      `Unauthorized`. */
  lemma UnauthorizedIffLookupSucceededAndCallFailed(net: Network, decode: Decoder<AuthResponse>, authServiceName: string, token: string)
    ensures var x := CheckToken(net, decode, authServiceName, token);
      (x.result == Failure(Service(ServiceError.Unauthorized)))
        <==> (net.selectHealthy(LookupKey(authServiceName, None)).Success? && x.result.Failure?)
  {
  }
}

=== FILE: auth_middleware.dfy ===
/** The bearer-token authentication middleware (src/middleware/auth.rs): take the
    token from the `Authorization` header, check it with the authentication service,
    and forward the request with the resolved user attached, or reject it. */
module AuthMiddleware {
  import opened Wrappers
  import opened Text
  import opened Errors
  import opened Json
  import opened ServiceClient
  import opened AuthClient

  type Byte = x: int | 0 <= x < 0x100

  /** A raw header value: bytes, not necessarily text. */
  type HeaderValue = seq<Byte>

  /** Header lookup by name; the framework stores names in lower case and `get`
      returns the first value of a name. */
  type HeaderMap = map<string, HeaderValue>

  const AuthorizationHeader := "authorization"
  const BearerPrefix := "Bearer "

  /** The identity attached to an authenticated request. */
  datatype CurrentUser = CurrentUser(id: string, username: string, permissions: seq<string>)

  /** The parts of an inbound request the middleware reads or changes: its headers
      and the `CurrentUser` slot of its extensions. */
  datatype Request = Request(headers: HeaderMap, currentUser: Option<CurrentUser>)

  /** `HeaderValue::to_str`'s acceptance test: tab or printable ASCII. */
  predicate VisibleAscii(b: Byte) {
    b == 9 || 32 <= b < 127
  }

  /** `HeaderValue::to_str`: the value as text when every byte is visible ASCII. */
  function HeaderText(v: HeaderValue): (r: Option<string>)
    ensures r.Some? <==> forall i :: 0 <= i < |v| ==> VisibleAscii(v[i])
    ensures r.Some? ==> |r.value| == |v| && forall i :: 0 <= i < |v| ==> r.value[i] as int == v[i]
  {
    if forall i :: 0 <= i < |v| ==> VisibleAscii(v[i])
    then Some(seq(|v|, i requires 0 <= i < |v| => v[i] as char))
    else None
  }

  /** The bytes of an ASCII text, as a client would send it. */
  function AsciiBytes(s: string): HeaderValue
    requires forall i :: 0 <= i < |s| ==> s[i] as int < 0x100
  {
    seq(|s|, i requires 0 <= i < |s| => s[i] as int)
  }

  predicate IsVisibleText(s: string) {
    forall i :: 0 <= i < |s| ==> s[i] == '\t' || ' ' <= s[i] <= '~'
  }

  /** `extract_token`: a missing header, a value that is not visible ASCII, or one not
      starting with exactly "Bearer " (case-sensitive, one space) is `Unauthorized`;
      otherwise the token is everything after those seven characters, possibly
      empty. */
  function ExtractToken(headers: HeaderMap): (r: Result<string, AppError>)
    ensures r.Failure? ==> r.error == Service(ServiceError.Unauthorized)
    ensures r.Success? <==>
      && AuthorizationHeader in headers
      && HeaderText(headers[AuthorizationHeader]).Some?
      && StartsWith(HeaderText(headers[AuthorizationHeader]).value, BearerPrefix)
    ensures r.Success? ==> BearerPrefix + r.value == HeaderText(headers[AuthorizationHeader]).value
  {
    var value :- (if AuthorizationHeader in headers then HeaderText(headers[AuthorizationHeader]) else None)
                 .ToResult(Service(ServiceError.Unauthorized));
    if !StartsWith(value, BearerPrefix) then Failure(Service(ServiceError.Unauthorized))
    else Success(value[7..])
  }

  /** Round trip: a header carrying "Bearer " followed by any visible-ASCII token
      yields exactly that token, the empty one included. */
  lemma ExtractBearerToken(headers: HeaderMap, token: string)
    requires IsVisibleText(token)
    requires AuthorizationHeader in headers
    requires headers[AuthorizationHeader] == AsciiBytes(BearerPrefix + token)
    ensures ExtractToken(headers) == Success(token)
  {
    var text := BearerPrefix + token;
    var v := headers[AuthorizationHeader];
    assert forall i :: 0 <= i < |v| ==> VisibleAscii(v[i]) by {
      forall i | 0 <= i < |v| ensures VisibleAscii(v[i]) {
        if i >= 7 {
          assert text[i] == token[i - 7];
        }
      }
    }
    var h := HeaderText(v).value;
    assert h == text;
    assert h[..7] == BearerPrefix;
    assert h[7..] == token;
  }

  /** Another scheme, or the right word in another case, is rejected. */
  lemma OtherSchemesRejected(headers: HeaderMap)
    requires AuthorizationHeader in headers
    requires headers[AuthorizationHeader] == AsciiBytes("Basic xyz")
          || headers[AuthorizationHeader] == AsciiBytes("bearer xyz")
    ensures ExtractToken(headers) == Failure(Service(ServiceError.Unauthorized))
  {
    var v := headers[AuthorizationHeader];
    var h := HeaderText(v).value;
    assert h[0] != 'B' || h[1] != 'e';
    assert !StartsWith(h, BearerPrefix);
  }

  /** The authority strings of the response, in order, duplicates kept. */
  function Permissions(auths: seq<Authority>): (ps: seq<string>)
    ensures |ps| == |auths|
    ensures forall i :: 0 <= i < |auths| ==> ps[i] == auths[i].authority
    decreases |auths|
  {
    if |auths| == 0 then [] else [auths[0].authority] + Permissions(auths[1..])
  }

  /** The `CurrentUser` built from a successful token check. */
  function ToCurrentUser(r: AuthResponse): (u: CurrentUser)
    ensures u.id == r.userInfo.userId && u.username == r.userInfo.username
    ensures |u.permissions| == |r.userInfo.authorities|
    ensures forall i :: 0 <= i < |u.permissions| ==> u.permissions[i] == r.userInfo.authorities[i].authority
  {
    CurrentUser(r.userInfo.userId, r.userInfo.username, Permissions(r.userInfo.authorities))
  }

  /** One pass through the middleware: the token check made (if any), the request
      handed to the next handler (if any), and the outcome. */
  datatype AuthRun<Resp> = AuthRun(
    check: Option<Exchange<AuthResponse>>,
    forwarded: Option<Request>,
    result: Result<Resp, AppError>)

  /** `mw_require_auth`: a failed extraction rejects without checking the token; a
      failed check rejects with the check's error unchanged; otherwise the request,
      with the user inserted, runs the next handler exactly once and its response is
      the result. */
  function RequireAuth<Resp>(req: Request, authServiceName: string, net: Network, decode: Decoder<AuthResponse>, next: Request -> Resp): (run: AuthRun<Resp>)
    ensures run.check.Some? <==> ExtractToken(req.headers).Success?
    ensures run.check.None? ==> run.result == Failure(ExtractToken(req.headers).error)
    ensures run.check.Some? ==>
      run.check.value == CheckToken(net, decode, authServiceName, ExtractToken(req.headers).value)
    ensures run.forwarded.Some? <==> run.check.Some? && run.check.value.result.Success?
    ensures run.check.Some? && run.check.value.result.Failure? ==>
      run.result == Failure(run.check.value.result.error)
    ensures run.forwarded.Some? ==>
      && run.forwarded.value == req.(currentUser := Some(ToCurrentUser(run.check.value.result.value)))
      && run.result == Success(next(run.forwarded.value))
  {
    match ExtractToken(req.headers)
    case Failure(e) => AuthRun(None, None, Failure(e))
    case Success(token) =>
      var check := CheckToken(net, decode, authServiceName, token);
      match check.result
      case Failure(e) => AuthRun(Some(check), None, Failure(e))
      case Success(authResponse) =>
        var user := ToCurrentUser(authResponse);
        var forwarded := req.(currentUser := Some(user));
        AuthRun(Some(check), Some(forwarded), Success(next(forwarded)))
  }

  /** End to end: a "Bearer <token>" request, a healthy auth instance, and a 2xx reply
      carrying the documented body for some response lead to exactly one forwarded
      request holding that response's user, after a check of exactly that token. */
  lemma AcceptedRequestCarriesUser<Resp>(
    req: Request, token: string, authServiceName: string, net: Network,
    parseJson: string -> Result<Json, string>, next: Request -> Resp, expected: AuthResponse)
    requires IsVisibleText(token)
    requires AuthorizationHeader in req.headers
    requires req.headers[AuthorizationHeader] == AsciiBytes(BearerPrefix + token)
    requires net.selectHealthy(LookupKey(authServiceName, None)).Success?
    requires var instance := net.selectHealthy(LookupKey(authServiceName, None)).value;
      var sent := net.send(HttpRequest(Get, BaseUrl(instance) + CheckTokenPath, [("token", token)], None));
      && sent.Success? && IsSuccessStatus(sent.value.status)
      && parseJson(sent.value.body) == Success(EncodeAuthResponse(expected))
    ensures var run := RequireAuth(req, authServiceName, net, ResponseDecoder(parseJson), next);
      && run.check.Some? && run.check.value.sent.Some?
      && run.check.value.sent.value.query == [("token", token)]
      && run.forwarded == Some(req.(currentUser := Some(ToCurrentUser(expected))))
      && run.result == Success(next(run.forwarded.value))
  {
    ExtractBearerToken(req.headers, token);
    DecodeEncodeAuthResponse(expected);
  }

  /** A rejected request never reaches the next handler, whatever the reason. */
  lemma RejectedRequestNotForwarded<Resp>(req: Request, authServiceName: string, net: Network, decode: Decoder<AuthResponse>, next: Request -> Resp)
    ensures var run := RequireAuth(req, authServiceName, net, decode, next);
      run.result.Failure? <==> run.forwarded.None?
  {
  }
}

=== FILE: bootstrap.dfy ===
/** The older start-up path of src/main.rs: one set of client properties shared by
    both Nacos clients, a hard-coded service name, and the initial configuration that
    seeds the store. */
module Bootstrap {
  import opened Wrappers
  import opened EnvConfig
  import opened AppSpecific
  import opened NacosSetup

  const HardcodedServiceName := "axum-template-service"

  /** `build_nacos_client_props`: the single namespace and the hard-coded application
      name, with credentials only when both username and password are configured. */
  function SharedClientProps(c: Config): (p: ClientProps)
    ensures p.serverAddr == c.nacosAddr && p.namespace == c.nacosNamespace
    ensures p.appName == HardcodedServiceName
    ensures p.credentials.Some? <==> c.nacosUsername.Some? && c.nacosPassword.Some?
    ensures p.credentials.Some? ==> p.credentials.value == (c.nacosUsername.value, c.nacosPassword.value)
  {
    ClientProps(c.nacosAddr, c.nacosNamespace, HardcodedServiceName, Credentials(c))
  }

  /** `build_nacos_naming_client` and `build_nacos_config_client` of src/main.rs, which
      build their clients alike: the shared properties, and the auth plugin whenever a
      username is configured. */
  function SharedClientSpec(c: Config): (s: ClientSpec)
    ensures s.props.namespace == c.nacosNamespace && s.props.appName == HardcodedServiceName
    ensures s.authPlugin <==> c.nacosUsername.Some?
    ensures s.props.credentials.Some? ==> s.authPlugin
    ensures s.props == SharedClientProps(c)
  {
    ClientSpec(SharedClientProps(c), c.nacosUsername.Some?)
  }

  /** The older clients coincide with the newer per-client specifications whenever the
      application name is the hard-coded one and both namespaces equal the single
      namespace. */
  lemma SharedSpecCoincides(c: Config)
    ensures var id := NacosIdentity(HardcodedServiceName, c.nacosNamespace, c.nacosNamespace);
      SharedClientSpec(c) == NamingClientSpec(c, id)
      && SharedClientSpec(c) == ConfigClientSpec(c, id)
  {
  }

  /** `register_nacos_instance` of src/main.rs: the same instance derivation under the
      hard-coded service name, with no group. */
  function RegisterHardcoded(c: Config, register: RegistryCall): (a: Attempt)
    ensures a.issued.Some? <==> InstanceFromServerAddr(c.serverAddr).Success?
    ensures a.issued.Some? ==>
      a.issued.value == Registration(HardcodedServiceName, None, InstanceFromServerAddr(c.serverAddr).value)
    ensures a.result.Success? <==> a.issued.Some? && register(a.issued.value).Success?
  {
    CallForDerivedInstance(HardcodedServiceName, c.serverAddr, register)
  }

  /** The older and newer registrations differ only in where the service name comes
      from. */
  lemma RegistrationsAgreeOnInstance(c: Config, id: NacosIdentity, register: RegistryCall)
    requires id.appName == HardcodedServiceName
    ensures RegisterHardcoded(c, register) == RegisterInstance(c, id, register)
  {
  }

  /** Start-up aborts (the `expect` panic) when the initial document does not parse. */
  datatype StartupAbort = InitialConfigUnparseable(detail: string)

  /** The store's initial value: the parsed initial document, or a fatal abort. */
  function InitialConfig(content: string, parse: Parser): (r: Result<AppSpecificConfig, StartupAbort>)
    ensures r.Success? <==> parse(content).Success?
    ensures r.Success? ==> r.value == parse(content).value
  {
    match parse(content)
    case Success(cfg) => Success(cfg)
    case Failure(ParseError(d)) => Failure(InitialConfigUnparseable(d))
  }

  /** The store as seen after start-up and a run of notifications. */
  function StoreAfter(initialContent: string, ns: seq<ConfigResponse>, parse: Parser): (r: Result<AppSpecificConfig, StartupAbort>)
    ensures r.Success? <==> parse(initialContent).Success?
    ensures r.Failure? ==> r.error == InitialConfigUnparseable(parse(initialContent).error.detail)
    ensures r.Success? ==>
      || r.value == parse(initialContent).value
      || exists i :: 0 <= i < |ns| && parse(ns[i].content) == Success(r.value)
  {
    var initial :- InitialConfig(initialContent, parse);
    Success(Replay(initial, ns, parse))
  }

  /** The same unparseable text is fatal at start-up but harmless afterwards: the
      process aborts before any store exists, while a notification carrying it leaves
      the store as it was. */
  lemma ParseFailureFatalOnlyAtStartup(content: string, ns: seq<ConfigResponse>, dataId: string, group: string, parse: Parser)
    requires parse(content).Failure?
    ensures StoreAfter(content, ns, parse).Failure?
    ensures forall initial: string :: StoreAfter(initial, ns, parse).Success? ==>
      StoreAfter(initial, ns + [ConfigResponse(dataId, group, content)], parse)
        == StoreAfter(initial, ns, parse)
  {
    forall initial: string | StoreAfter(initial, ns, parse).Success?
      ensures StoreAfter(initial, ns + [ConfigResponse(dataId, group, content)], parse)
        == StoreAfter(initial, ns, parse)
    {
      var start := InitialConfig(initial, parse).value;
      ReplaySnoc(start, ns, ConfigResponse(dataId, group, content), parse);
    }
  }

  /** Once started, the store always holds the latest document that parsed, or the
      initial one if none of the notifications parsed. */
  lemma StoreHoldsLatest(initialContent: string, ns: seq<ConfigResponse>, parse: Parser)
    requires parse(initialContent).Success?
    ensures StoreAfter(initialContent, ns, parse)
      == Success(LatestParsed(ns, parse).GetOr(parse(initialContent).value))
  {
    ReplayHoldsLatestParsed(parse(initialContent).value, ns, parse);
  }
}

=== FILE: database.dfy ===
/** Connection-pool options derived from the `database` section of the application
    configuration (src/setup/database.rs). Opening the connection is not modelled. */
module DatabaseSetup {
  import opened Wrappers
  import opened AppSpecific

  const DefaultMaxConnections: U32 := 5
  const MinConnections: U32 := 1
  const ConnectTimeoutSecs: nat := 8
  const IdleTimeoutSecs: nat := 8

  const MissingSectionMessage := "Nacos 配置中缺少 [database] 部分"
  const MissingUrlMessage := "Nacos 配置 [database] 中缺少 'url' 字段"

  datatype LogLevel = Debug

  /** The SeaORM `ConnectOptions` handed to `Database::connect`. */
  datatype ConnectOptions = ConnectOptions(
    url: string,
    maxConnections: U32,
    minConnections: U32,
    connectTimeoutSecs: nat,
    idleTimeoutSecs: nat,
    sqlxLogging: bool,
    sqlxLoggingLevel: LogLevel)

  /** The options `build_db_pool` connects with, or the error it returns before any
      connection attempt: the section is checked first, then its `url`; the pool size
      defaults to 5 and is not bounded below. */
  function PoolOptions(cfg: AppSpecificConfig): (r: Result<ConnectOptions, string>)
    ensures cfg.database.None? ==> r == Failure(MissingSectionMessage)
    ensures cfg.database.Some? && cfg.database.value.url.None? ==> r == Failure(MissingUrlMessage)
    ensures r.Success? <==> cfg.database.Some? && cfg.database.value.url.Some?
    ensures r.Success? ==>
      && r.value.url == cfg.database.value.url.value
      && (cfg.database.value.poolSize.Some? ==> r.value.maxConnections == cfg.database.value.poolSize.value)
      && (cfg.database.value.poolSize.None? ==> r.value.maxConnections == DefaultMaxConnections)
    ensures r.Success? ==>
      && r.value.minConnections == 1
      && r.value.connectTimeoutSecs == 8 && r.value.idleTimeoutSecs == 8
  {
    var db :- cfg.database.ToResult(MissingSectionMessage);
    var url :- db.url.ToResult(MissingUrlMessage);
    var maxConnections := db.poolSize.GetOr(DefaultMaxConnections);
    Success(ConnectOptions(url, maxConnections, MinConnections, ConnectTimeoutSecs,
                           IdleTimeoutSecs, true, Debug))
  }

  /** Only the `database` section matters: configurations that agree on it give the
      same options or the same error. */
  lemma PoolOptionsOnlyReadsDatabase(a: AppSpecificConfig, b: AppSpecificConfig)
    requires a.database == b.database
    ensures PoolOptions(a) == PoolOptions(b)
  {
  }

  /** A zero pool size is passed through rather than replaced by the default. */
  lemma ZeroPoolSizePassesThrough(url: string)
    ensures var cfg := AppSpecificConfig(None, None, Some(DatabaseConfig(Some(url), Some(0))), None, None);
      PoolOptions(cfg).Success? && PoolOptions(cfg).value.maxConnections == 0
  {
  }
}

=== FILE: env_config.dfy ===
/** The base configuration read from environment variables (src/config/mod.rs). */
module EnvConfig {
  import opened Wrappers

  /** The process environment after the optional `.env` file has been loaded. */
  type Env = map<string, string>

  datatype Config = Config(
    serverAddr: string,
    databaseUrl: Option<string>,
    nacosAddr: string,
    nacosNamespace: string,
    nacosUsername: Option<string>,
    nacosPassword: Option<string>,
    nacosConfigDataId: string,
    nacosConfigGroup: string,
    authServiceName: string)

  /** `ConfigError::Var(VarError::NotPresent)`: a required variable is unset. The
      error does not say which one. */
  datatype ConfigError = VarNotPresent

  const DefaultServerAddr := "0.0.0.0:4000"
  const DefaultNacosNamespace := ""
  const DefaultNacosConfigGroup := "DEFAULT_GROUP"

  /** The variables without which no configuration is produced. */
  const RequiredVars: set<string> := {"NACOS_ADDR", "NACOS_CONFIG_DATA_ID", "AUTH_SERVICE_NAME"}

  function Var(env: Env, name: string): Option<string> {
    if name in env then Some(env[name]) else None
  }

  /** `Config::from_env`: three variables are required, `SERVER_ADDR`,
      `NACOS_NAMESPACE` and `NACOS_CONFIG_GROUP` fall back to defaults, and
      `DATABASE_URL`, `NACOS_USERNAME` and `NACOS_PASSWORD` are optional. */
  function FromEnv(env: Env): (r: Result<Config, ConfigError>)
    ensures r.Success? <==> RequiredVars <= env.Keys
    ensures r.Success? ==>
      && r.value.nacosAddr == env["NACOS_ADDR"]
      && r.value.nacosConfigDataId == env["NACOS_CONFIG_DATA_ID"]
      && r.value.authServiceName == env["AUTH_SERVICE_NAME"]
    ensures r.Success? ==>
      && (r.value.databaseUrl.Some? <==> "DATABASE_URL" in env)
      && (r.value.nacosUsername.Some? <==> "NACOS_USERNAME" in env)
      && (r.value.nacosPassword.Some? <==> "NACOS_PASSWORD" in env)
    ensures r.Success? && "SERVER_ADDR" !in env ==> r.value.serverAddr == DefaultServerAddr
    ensures r.Success? && "NACOS_NAMESPACE" !in env ==> r.value.nacosNamespace == DefaultNacosNamespace
    ensures r.Success? && "NACOS_CONFIG_GROUP" !in env ==> r.value.nacosConfigGroup == DefaultNacosConfigGroup
  {
    var serverAddr := Var(env, "SERVER_ADDR").GetOr(DefaultServerAddr);
    var databaseUrl := Var(env, "DATABASE_URL");
    var nacosAddr :- Var(env, "NACOS_ADDR").ToResult(VarNotPresent);
    var nacosNamespace := Var(env, "NACOS_NAMESPACE").GetOr(DefaultNacosNamespace);
    var nacosUsername := Var(env, "NACOS_USERNAME");
    var nacosPassword := Var(env, "NACOS_PASSWORD");
    var nacosConfigDataId :- Var(env, "NACOS_CONFIG_DATA_ID").ToResult(VarNotPresent);
    var nacosConfigGroup := Var(env, "NACOS_CONFIG_GROUP").GetOr(DefaultNacosConfigGroup);
    var authServiceName :- Var(env, "AUTH_SERVICE_NAME").ToResult(VarNotPresent);
    Success(Config(serverAddr, databaseUrl, nacosAddr, nacosNamespace, nacosUsername,
                   nacosPassword, nacosConfigDataId, nacosConfigGroup, authServiceName))
  }

  /** `env` with `name` set to the value, when there is one. */
  function WithOptional(env: Env, name: string, v: Option<string>): (r: Env)
    ensures v.Some? ==> r == env[name := v.value]
    ensures v.None? ==> r == env
  {
    if v.Some? then env[name := v.value] else env
  }

  /** The environment that describes a configuration: every field under its
      variable name, optional fields only when present. */
  function ToEnv(c: Config): Env {
    var base := map[
      "SERVER_ADDR" := c.serverAddr,
      "NACOS_ADDR" := c.nacosAddr,
      "NACOS_NAMESPACE" := c.nacosNamespace,
      "NACOS_CONFIG_DATA_ID" := c.nacosConfigDataId,
      "NACOS_CONFIG_GROUP" := c.nacosConfigGroup,
      "AUTH_SERVICE_NAME" := c.authServiceName];
    WithOptional(WithOptional(WithOptional(base,
      "DATABASE_URL", c.databaseUrl),
      "NACOS_USERNAME", c.nacosUsername),
      "NACOS_PASSWORD", c.nacosPassword)
  }

  /** Present variables are copied verbatim: reading back the environment that
      describes any configuration yields that configuration. */
  lemma FromEnvToEnv(c: Config)
    ensures FromEnv(ToEnv(c)) == Success(c)
  {
    ToEnvLookups(c);
  }

  /** Where each field of a configuration sits in the environment describing it. */
  lemma ToEnvLookups(c: Config)
    ensures var e := ToEnv(c);
      && Var(e, "SERVER_ADDR") == Some(c.serverAddr)
      && Var(e, "NACOS_ADDR") == Some(c.nacosAddr)
      && Var(e, "NACOS_NAMESPACE") == Some(c.nacosNamespace)
      && Var(e, "NACOS_CONFIG_DATA_ID") == Some(c.nacosConfigDataId)
      && Var(e, "NACOS_CONFIG_GROUP") == Some(c.nacosConfigGroup)
      && Var(e, "AUTH_SERVICE_NAME") == Some(c.authServiceName)
      && Var(e, "DATABASE_URL") == c.databaseUrl
      && Var(e, "NACOS_USERNAME") == c.nacosUsername
      && Var(e, "NACOS_PASSWORD") == c.nacosPassword
  {
  }

  /** Conversely, every variable the loader reads and finds is reproduced unchanged by
      the configuration it builds; the only additions are the defaults. */
  lemma ToEnvFromEnv(env: Env)
    requires RequiredVars <= env.Keys
    ensures var e := ToEnv(FromEnv(env).value);
      forall k :: k in env && k in ConfigVars() ==> Var(e, k) == Some(env[k])
  {
    ToEnvLookups(FromEnv(env).value);
  }

  function ConfigVars(): set<string> {
    RequiredVars + {"SERVER_ADDR", "DATABASE_URL", "NACOS_NAMESPACE", "NACOS_USERNAME",
                    "NACOS_PASSWORD", "NACOS_CONFIG_GROUP"}
  }
}

=== FILE: errors.dfy ===
/** The application error union and its mapping to an HTTP error response
    (src/errors.rs). */
module Errors {
  import opened Text

  /** Business-level errors raised by the authentication and validation paths. */
  datatype ServiceError =
    | Unauthorized
    | InvalidArgument(reason: string)

  /** Every error a handler, middleware or client of the service can return. The
      first nine variants are the ones the `IntoResponse` mapping covers; each wrapped
      library error is represented by its rendered `Display` text. `InternalError` and
      `Service` are the two further variants the client and extractor code construct. */
  datatype AppError =
    | Nacos(detail: string)
    | Config(detail: string)
    | DatabaseError(detail: string)
    | RedisPoolError(detail: string)
    | RedisError(detail: string)
    | Anyhow(detail: string)
    | NotFound(message: string)
    | BadRequest(message: string)
    | Unauthorized(message: string)
    | InternalError(message: string)
    | Service(cause: ServiceError)
  {
    /** The variants whose HTTP rendering the error-to-response mapping defines. */
    predicate HasResponseMapping() {
      !InternalError? && !Service?
    }

    /** Variants that wrap an infrastructure failure. */
    predicate IsInfrastructure() {
      Nacos? || Config? || DatabaseError? || RedisPoolError? || RedisError? || Anyhow?
    }
  }

  const StatusBadRequest: nat := 400
  const StatusUnauthorized: nat := 401
  const StatusNotFound: nat := 404
  const StatusInternalServerError: nat := 500

  /** The JSON body `{"code": <status>, "message": <message>}`. */
  datatype ErrorBody = ErrorBody(code: nat, message: string)

  datatype ErrorResponse = ErrorResponse(status: nat, body: ErrorBody)

  /** The fixed text put in front of a wrapped infrastructure error's own text. */
  function InfrastructurePrefix(e: AppError): string
    requires e.IsInfrastructure()
  {
    match e
    case Nacos(_) => "Nacos error: "
    case Config(_) => "Config error: "
    case DatabaseError(_) => "Database error: "
    case RedisPoolError(_) => "Redis pool error: "
    case RedisError(_) => "Redis command error: "
    case Anyhow(_) => "Internal error: "
  }

  /** `impl IntoResponse for AppError`: infrastructure failures become 500 with a
      per-variant prefix before the wrapped error's text; NotFound, BadRequest and
      Unauthorized become 404, 400 and 401 and carry their message verbatim; the body
      repeats the numeric status as its `code`. */
  function IntoResponse(e: AppError): (r: ErrorResponse)
    requires e.HasResponseMapping()
    ensures r.body.code == r.status
    ensures r.status == StatusInternalServerError <==> e.IsInfrastructure()
    ensures r.status == StatusNotFound <==> e.NotFound?
    ensures r.status == StatusBadRequest <==> e.BadRequest?
    ensures r.status == StatusUnauthorized <==> e.Unauthorized?
    ensures e.IsInfrastructure() ==>
      r.body.message == InfrastructurePrefix(e) + e.detail
    ensures !e.IsInfrastructure() ==> r.body.message == e.message
  {
    var (status, message) :=
      match e
      case Nacos(d) => (StatusInternalServerError, "Nacos error: " + d)
      case Config(d) => (StatusInternalServerError, "Config error: " + d)
      case DatabaseError(d) => (StatusInternalServerError, "Database error: " + d)
      case RedisPoolError(d) => (StatusInternalServerError, "Redis pool error: " + d)
      case RedisError(d) => (StatusInternalServerError, "Redis command error: " + d)
      case Anyhow(d) => (StatusInternalServerError, "Internal error: " + d)
      case NotFound(m) => (StatusNotFound, m)
      case BadRequest(m) => (StatusBadRequest, m)
      case Unauthorized(m) => (StatusUnauthorized, m);
    ErrorResponse(status, ErrorBody(status, message))
  }

  /** The mapping is total over its variants and only ever produces one of four
      statuses, all of them client or server errors. */
  lemma IntoResponseStatuses(e: AppError)
    requires e.HasResponseMapping()
    ensures IntoResponse(e).status in {StatusBadRequest, StatusUnauthorized, StatusNotFound, StatusInternalServerError}
  {
  }

  /** Infrastructure messages are always distinguishable by their prefix from the
      wrapped text alone: the body message starts with the variant's prefix. */
  lemma InfrastructureMessagePrefixed(e: AppError)
    requires e.IsInfrastructure()
    ensures StartsWith(IntoResponse(e).body.message, InfrastructurePrefix(e))
  {
    var m := IntoResponse(e).body.message;
    assert m[..|InfrastructurePrefix(e)|] == InfrastructurePrefix(e);
  }
}

=== FILE: hello.dfy ===
/** The configuration echo endpoint (src/handlers/hello_handler.rs): a read-only
    projection of the current configuration snapshot. */
module HelloHandler {
  import opened Wrappers
  import opened AppSpecific
  import opened Response
  import opened NacosSetup

  const DefaultGreeting := "Default Greeting from Code"

  datatype HelloResponse = HelloResponse(
    message: string,
    logLevel: Option<string>,
    dashboardEnabled: Option<bool>)

  /** `hello_from_nacos_config`: the greeting or a fixed default, the log level as
      configured (absence included), and the dashboard flag, absent when there are no
      feature flags; wrapped in a success envelope. */
  function HelloFromNacosConfig(snapshot: AppSpecificConfig): (r: ApiResponse<HelloResponse>)
    ensures r.code == SuccessCode && r.data.Some?
    ensures snapshot.greeting.Some? ==> r.data.value.message == snapshot.greeting.value
    ensures snapshot.greeting.None? ==> r.data.value.message == DefaultGreeting
    ensures r.data.value.logLevel == snapshot.logLevel
    ensures snapshot.featureFlags.None? ==> r.data.value.dashboardEnabled.None?
    ensures snapshot.featureFlags.Some? ==>
      r.data.value.dashboardEnabled == snapshot.featureFlags.value.newDashboardEnabled
  {
    var message := snapshot.greeting.GetOr(DefaultGreeting);
    var dashboard :=
      match snapshot.featureFlags
      case Some(flags) => flags.newDashboardEnabled
      case None => None;
    Response.Success(HelloResponse(message, snapshot.logLevel, dashboard))
  }

  /** Only the greeting, log level and dashboard flag are visible: snapshots that
      differ elsewhere (database, service settings, other flags) answer alike. */
  lemma HelloSeesOnlyItsFields(a: AppSpecificConfig, b: AppSpecificConfig)
    requires a.greeting == b.greeting && a.logLevel == b.logLevel
    requires (a.featureFlags.None? && b.featureFlags.None?)
          || (a.featureFlags.Some? && b.featureFlags.Some?
              && a.featureFlags.value.newDashboardEnabled == b.featureFlags.value.newDashboardEnabled)
    ensures HelloFromNacosConfig(a) == HelloFromNacosConfig(b)
  {
  }

  /** After any run of notifications the endpoint reports the latest configuration
      that parsed (or the initial one). */
  lemma HelloReportsLatestParsed(initial: AppSpecificConfig, ns: seq<ConfigResponse>, parse: Parser)
    ensures HelloFromNacosConfig(Replay(initial, ns, parse))
      == HelloFromNacosConfig(LatestParsed(ns, parse).GetOr(initial))
  {
    ReplayHoldsLatestParsed(initial, ns, parse);
  }
}

=== FILE: json.dfy ===
/** A JSON value tree and the field lookup serde's derived struct decoders perform.
    Turning response text into this tree is the JSON library's job and stays a
    caller-supplied function. */
module Json {
  import opened Wrappers

  datatype Json =
    | JNull
    | JBool(b: bool)
    | JNum(n: int)
    | JStr(s: string)
    | JArr(items: seq<Json>)
    | JObj(members: seq<(string, Json)>)

  /** The values stored under `key`, in order. */
  function ValuesOf(members: seq<(string, Json)>, key: string): (vs: seq<Json>)
    ensures |vs| <= |members|
    decreases |members|
  {
    if |members| == 0 then []
    else (if members[0].0 == key then [members[0].1] else []) + ValuesOf(members[1..], key)
  }

  /** A derived struct decoder's view of one field: present exactly once (a repeated
      field is a "duplicate field" error, an absent one a "missing field" error);
      members with other keys are ignored. */
  function Field(j: Json, key: string): Option<Json>
  {
    if !j.JObj? then None
    else
      var vs := ValuesOf(j.members, key);
      if |vs| == 1 then Some(vs[0]) else None
  }

  /** The field values a derived struct decoder reads, in declaration order. From an
      object, each declared field is looked up by name; from an array (serde's
      sequence form of a struct), the elements are the fields by position and there
      must be exactly as many as declared. Any other value is rejected. */
  function StructFields(j: Json, keys: seq<string>): (r: Option<seq<Json>>)
    ensures r.Some? ==> |r.value| == |keys|
    ensures r.Some? ==> j.JObj? || j.JArr?
    ensures j.JArr? ==> (r.Some? <==> |j.items| == |keys|) && (r.Some? ==> r.value == j.items)
    ensures j.JObj? ==> (r.Some? <==> forall i :: 0 <= i < |keys| ==> Field(j, keys[i]).Some?)
    ensures j.JObj? && r.Some? ==> forall i :: 0 <= i < |keys| ==> r.value[i] == Field(j, keys[i]).value
    decreases |keys|
  {
    match j
    case JArr(items) => if |items| == |keys| then Some(items) else None
    case JObj(_) => NamedFields(j, keys)
    case _ => None
  }

  function NamedFields(j: Json, keys: seq<string>): (r: Option<seq<Json>>)
    ensures r.Some? ==> |r.value| == |keys|
    ensures r.Some? <==> forall i :: 0 <= i < |keys| ==> Field(j, keys[i]).Some?
    ensures r.Some? ==> forall i :: 0 <= i < |keys| ==> r.value[i] == Field(j, keys[i]).value
    decreases |keys|
  {
    if |keys| == 0 then Some([])
    else
      match (Field(j, keys[0]), NamedFields(j, keys[1..]))
      case (Some(v), Some(vs)) => Some([v] + vs)
      case _ => None
  }

  function StringField(j: Json, key: string): Option<string>
  {
    match Field(j, key)
    case Some(JStr(s)) => Some(s)
    case _ => None
  }

  /** A key that no member carries contributes nothing; one carried once is found. */
  lemma ValuesOfDistinct(members: seq<(string, Json)>, key: string, i: nat)
    requires i < |members| && members[i].0 == key
    requires forall k :: 0 <= k < |members| && k != i ==> members[k].0 != key
    ensures ValuesOf(members, key) == [members[i].1]
    decreases |members|
  {
    if i > 0 {
      ValuesOfDistinct(members[1..], key, i - 1);
    } else {
      ValuesOfAbsent(members[1..], key);
    }
  }

  lemma ValuesOfAbsent(members: seq<(string, Json)>, key: string)
    requires forall k :: 0 <= k < |members| ==> members[k].0 != key
    ensures ValuesOf(members, key) == []
    decreases |members|
  {
    if |members| > 0 {
      ValuesOfAbsent(members[1..], key);
    }
  }
}

=== FILE: kms_app_access.dfy ===
/** The app-access endpoints (src/handlers/kms_app_access_handler.rs) and their
    service (src/services/kms_app_access_service.rs). The permission check and the
    repository query are caller-supplied functions. */
module KmsAppAccess {
  import opened Wrappers
  import opened Text
  import opened Errors
  import opened Response
  import opened ValidatedJson
  import opened AuthMiddleware

  const ViewPermission := "kms_kmsAppAccess_view"
  const AddPermission := "kms_kmsAppAccess_add"

  const NameRequiredMessage := "应用名称(name)不能为空"
  const DescriptionTooLongMessage := "描述(description)长度不能超过 50"
  const DescriptionMaxLength := 50

  /** `check_permission(user, authority)` is not modelled: any function of the user
      and the required authority. */
  type PermissionCheck = (CurrentUser, string) -> Result<(), AppError>

  /** `find_by_id`: the row with that id, if any, or the database error's text. */
  type FindById<Row> = int -> Result<Option<Row>, string>

  // ---------------------------------------------------------------------------
  // Service
  // ---------------------------------------------------------------------------

  function NotFoundMessage(id: int): string {
    "AppAccess with ID " + ShowInt(id) + " not found"
  }

  /** Different ids never share a not-found message. */
  lemma NotFoundMessageNamesId(a: int, b: int)
    requires NotFoundMessage(a) == NotFoundMessage(b)
    ensures a == b
  {
    var pre := "AppAccess with ID ";
    var post := " not found";
    var ma := NotFoundMessage(a);
    assert ShowInt(a) == ma[|pre|..|ma| - |post|];
    assert ShowInt(b) == ma[|pre|..|ma| - |post|];
    ShowIntInjective(a, b);
  }

  /** `get_app_access_by_id`: the repository is asked for `id` itself; a found row is
      returned unchanged, an absent one is NotFound naming the id, and a repository
      error is a database error, never NotFound. */
  function GetAppAccessById<Row>(id: int, findById: FindById<Row>): (r: Result<Row, AppError>)
    ensures findById(id).Failure? ==> r == Failure(DatabaseError(findById(id).error))
    ensures findById(id).Success? && findById(id).value.Some? ==> r == Success(findById(id).value.value)
    ensures findById(id) == Success(None) ==> r == Failure(NotFound(NotFoundMessage(id)))
  {
    match findById(id)
    case Failure(e) => Failure(DatabaseError(e))
    case Success(Some(row)) => Success(row)
    case Success(None) => Failure(NotFound(NotFoundMessage(id)))
  }

  // ---------------------------------------------------------------------------
  // GET /{id}
  // ---------------------------------------------------------------------------

  /** A handler run: the id the repository was asked for (if it was asked), and the
      outcome. */
  datatype GetRun<Row> = GetRun(queried: Option<int>, result: Result<ApiResponse<Row>, AppError>)

  /** `get_app_access_handler`: the view permission is checked first, and a refusal
      means the repository is never asked; otherwise the row is looked up and wrapped
      in a success envelope. */
  function GetAppAccessHandler<Row>(user: CurrentUser, id: int, checkPermission: PermissionCheck, findById: FindById<Row>): (run: GetRun<Row>)
    ensures checkPermission(user, ViewPermission).Failure? ==>
      run.queried.None? && run.result == Failure(checkPermission(user, ViewPermission).error)
    ensures checkPermission(user, ViewPermission).Success? ==> run.queried == Some(id)
    ensures run.result.Success? <==>
      checkPermission(user, ViewPermission).Success? && GetAppAccessById(id, findById).Success?
    ensures run.result.Success? ==> run.result.value == Response.Success(GetAppAccessById(id, findById).value)
    ensures checkPermission(user, ViewPermission).Success? && GetAppAccessById(id, findById).Failure? ==>
      run.result == Failure(GetAppAccessById(id, findById).error)
  {
    match checkPermission(user, ViewPermission)
    case Failure(e) => GetRun(None, Failure(e))
    case Success(_) =>
      match GetAppAccessById(id, findById)
      case Failure(e) => GetRun(Some(id), Failure(e))
      case Success(row) => GetRun(Some(id), Success(Response.Success(row)))
  }

  // ---------------------------------------------------------------------------
  // POST /
  // ---------------------------------------------------------------------------

  datatype CreateAppAccessRequest = CreateAppAccessRequest(name: string, description: Option<string>)

  /** The declared rules of `CreateAppAccessRequest`: `name` at least one character
      long, and `description`, when present, at most 50 characters. */
  function ValidateCreate(req: CreateAppAccessRequest): (vs: seq<Violation>)
    ensures Violation("name", NameRequiredMessage) in vs <==> |req.name| < 1
    ensures Violation("description", DescriptionTooLongMessage) in vs <==>
      req.description.Some? && |req.description.value| > DescriptionMaxLength
    ensures forall v :: v in vs ==>
      v == Violation("name", NameRequiredMessage) || v == Violation("description", DescriptionTooLongMessage)
  {
    (if |req.name| < 1 then [Violation("name", NameRequiredMessage)] else [])
    + (match req.description
       case Some(d) =>
         if |d| > DescriptionMaxLength then [Violation("description", DescriptionTooLongMessage)] else []
       case None => [])
  }

  /** A request is valid exactly when its name is non-empty and its description,
      if any, is at most 50 characters. */
  lemma ValidCreateRequests(req: CreateAppAccessRequest)
    ensures ValidateCreate(req) == [] <==>
      |req.name| >= 1 && (req.description.None? || |req.description.value| <= DescriptionMaxLength)
  {
    if ValidateCreate(req) != [] {
      assert ValidateCreate(req)[0] in ValidateCreate(req);
    }
  }

  /** A handler run: whether the permission check was reached, and the outcome. */
  datatype CreateRun = CreateRun(permissionChecked: bool, result: Result<ApiResponse<()>, AppError>)

  /** `create_app_access_handler`: the body is extracted and validated before the
      handler body runs, so an invalid body is an invalid argument whatever the
      user's permissions; then the add permission is checked; a permitted request
      gets an empty success envelope and nothing is stored. */
  function CreateAppAccessHandler(user: CurrentUser, extracted: Result<CreateAppAccessRequest, string>, render: seq<Violation> -> string, checkPermission: PermissionCheck): (run: CreateRun)
    ensures FromRequest(extracted, ValidateCreate, render).Failure? ==>
      !run.permissionChecked && run.result == Failure(FromRequest(extracted, ValidateCreate, render).error)
    ensures FromRequest(extracted, ValidateCreate, render).Success? ==>
      && run.permissionChecked
      && (checkPermission(user, AddPermission).Success? ==> run.result == Success(Response.Success(())))
      && (checkPermission(user, AddPermission).Failure? ==>
            run.result == Failure(checkPermission(user, AddPermission).error))
  {
    match FromRequest(extracted, ValidateCreate, render)
    case Failure(e) => CreateRun(false, Failure(e))
    case Success(_) =>
      match checkPermission(user, AddPermission)
      case Failure(e) => CreateRun(true, Failure(e))
      case Success(_) => CreateRun(true, Success(Response.Success(())))
  }

  /** An over-long description is reported as an invalid argument even for a user
      without the add permission, and the permission is never consulted. */
  lemma InvalidBodyBeatsPermission(user: CurrentUser, name: string, description: string, render: seq<Violation> -> string, checkPermission: PermissionCheck)
    requires |description| > DescriptionMaxLength
    ensures var run := CreateAppAccessHandler(user, Success(CreateAppAccessRequest(name, Some(description))), render, checkPermission);
      && !run.permissionChecked
      && run.result.Failure? && run.result.error.Service? && run.result.error.cause.InvalidArgument?
  {
    var req := CreateAppAccessRequest(name, Some(description));
    assert Violation("description", DescriptionTooLongMessage) in ValidateCreate(req);
  }
}

=== FILE: nacos.dfy ===
/** Registry and config-center setup (src/setup/nacos.rs): client properties, the
    instance the service registers and deregisters, and the configuration store kept
    fresh by change notifications. The Nacos SDK calls are caller-supplied functions. */
module NacosSetup {
  import opened Wrappers
  import opened Text
  import opened EnvConfig
  import opened AppSpecific

  /** The three settings this module reads that the environment loader of
      src/config/mod.rs does not produce: the application name and one namespace for
      each client. */
  datatype NacosIdentity = NacosIdentity(
    appName: string,
    namingNamespace: string,
    configNamespace: string)

  // ---------------------------------------------------------------------------
  // Client properties
  // ---------------------------------------------------------------------------

  /** `ClientProps`: server address, namespace, application name and the optional
      username/password pair. */
  datatype ClientProps = ClientProps(
    serverAddr: string,
    namespace: string,
    appName: string,
    credentials: Option<(string, string)>)

  /** What a client is built from: its properties and whether the HTTP auth plugin is
      enabled. */
  datatype ClientSpec = ClientSpec(props: ClientProps, authPlugin: bool)

  /** Credentials are attached only when both username and password are configured. */
  function Credentials(c: Config): (r: Option<(string, string)>)
    ensures r.Some? <==> c.nacosUsername.Some? && c.nacosPassword.Some?
    ensures r.Some? ==> r.value == (c.nacosUsername.value, c.nacosPassword.value)
  {
    match (c.nacosUsername, c.nacosPassword)
    case (Some(u), Some(p)) => Some((u, p))
    case _ => None
  }

  /** `build_nacos_naming_client`: the naming namespace; the auth plugin is enabled
      whenever a username is configured, even without a password. */
  function NamingClientSpec(c: Config, id: NacosIdentity): (s: ClientSpec)
    ensures s.props.namespace == id.namingNamespace
    ensures s.props.serverAddr == c.nacosAddr && s.props.appName == id.appName
    ensures s.props.credentials.Some? <==> c.nacosUsername.Some? && c.nacosPassword.Some?
    ensures s.props.credentials.Some? ==>
      s.props.credentials.value == (c.nacosUsername.value, c.nacosPassword.value)
    ensures s.authPlugin <==> c.nacosUsername.Some?
  {
    var props := ClientProps(c.nacosAddr, id.namingNamespace, id.appName, Credentials(c));
    ClientSpec(props, c.nacosUsername.Some?)
  }

  /** `build_nacos_config_client`: as the naming client, with the config namespace. */
  function ConfigClientSpec(c: Config, id: NacosIdentity): (s: ClientSpec)
    ensures s.props.namespace == id.configNamespace
    ensures s.props.serverAddr == c.nacosAddr && s.props.appName == id.appName
    ensures s.props.credentials.Some? <==> c.nacosUsername.Some? && c.nacosPassword.Some?
    ensures s.props.credentials.Some? ==>
      s.props.credentials.value == (c.nacosUsername.value, c.nacosPassword.value)
    ensures s.authPlugin <==> c.nacosUsername.Some?
  {
    var props := ClientProps(c.nacosAddr, id.configNamespace, id.appName, Credentials(c));
    ClientSpec(props, c.nacosUsername.Some?)
  }

  /** The two clients share everything but their namespace. */
  lemma ClientsDifferOnlyInNamespace(c: Config, id: NacosIdentity)
    ensures var n := NamingClientSpec(c, id);
      n.(props := n.props.(namespace := id.configNamespace)) == ConfigClientSpec(c, id)
  {
  }

  /** A username without a password enables the auth plugin but sends no credentials. */
  lemma UsernameAloneEnablesPluginOnly(c: Config, id: NacosIdentity)
    requires c.nacosUsername.Some? && c.nacosPassword.None?
    ensures NamingClientSpec(c, id).authPlugin && NamingClientSpec(c, id).props.credentials.None?
    ensures ConfigClientSpec(c, id).authPlugin && ConfigClientSpec(c, id).props.credentials.None?
  {
  }

  // ---------------------------------------------------------------------------
  // The service's own instance
  // ---------------------------------------------------------------------------

  const DefaultIp := "127.0.0.1"
  const DefaultPort := "3000"

  /** The instance fields the service sets; all others keep the SDK defaults. */
  datatype ServiceInstance = ServiceInstance(ip: string, port: int)

  /** One register or deregister call: service name, group, instance. */
  datatype Registration = Registration(
    serviceName: string,
    group: Option<string>,
    instance: ServiceInstance)

  datatype SetupError =
    | InvalidPort(text: string)
    | RegistryFailure(detail: string)

  /** A registry interaction: the call issued (if any) and its outcome. */
  datatype Attempt = Attempt(issued: Option<Registration>, result: Result<(), SetupError>)

  /** The registry's answer to a register or deregister call. */
  type RegistryCall = Registration -> Result<(), string>

  /** The instance address derived from `server_addr`: the text before the first ':'
      is the ip (the split always has a first piece, so the fallback ip is never
      used); the text between the first and second ':' is the port, "3000" when there
      is no ':'; the port must parse as an `i32`, and a text that does not is
      reported as the invalid port. */
  function InstanceFromServerAddr(serverAddr: string): (r: Result<ServiceInstance, SetupError>)
    ensures r.Success? ==> InI32(r.value.port)
    ensures r.Success? ==>
      var ip := r.value.ip;
      && ip <= serverAddr && ':' !in ip
      && (|ip| == |serverAddr| || serverAddr[|ip|] == ':')
    ensures r.Failure? ==>
      && r.error.InvalidPort? && ':' in serverAddr
      && ':' !in r.error.text && ParseI32(r.error.text).None?
  {
    var parts := Split(serverAddr, ':');
    var ip := if |parts| > 0 then parts[0] else DefaultIp;
    var portText := if |parts| > 1 then parts[1] else DefaultPort;
    DefaultPortParses();
    match ParseI32(portText)
    case Some(port) => Success(ServiceInstance(ip, port))
    case None => Failure(InvalidPort(portText))
  }

  lemma DefaultPortParses()
    ensures ParseI32(DefaultPort) == Some(3000)
  {
    assert ShowInt(3000) == DefaultPort;
    ParseShowI32(3000);
  }

  /** Without any ':' the whole text is the ip and the port is 3000. */
  lemma NoColonUsesDefaultPort(serverAddr: string)
    requires ':' !in serverAddr
    ensures InstanceFromServerAddr(serverAddr) == Success(ServiceInstance(serverAddr, 3000))
  {
    FirstPieceIs(serverAddr, serverAddr, ':');
    DefaultPortParses();
  }

  /** With a ':', the port text is everything between the first ':' and the second
      one (or the end); whatever follows a second ':' is ignored. That text alone
      decides the outcome: the instance at its `i32` value, or the invalid port
      naming it. Every text containing a ':' splits this way exactly once. */
  lemma PortTextDecides(ip: string, portText: string, tail: string)
    requires ':' !in ip && ':' !in portText
    requires tail == [] || tail[0] == ':'
    ensures InstanceFromServerAddr(ip + ":" + portText + tail)
      == match ParseI32(portText)
         case Some(p) => Success(ServiceInstance(ip, p))
         case None => Failure(InvalidPort(portText))
  {
    assert ip + ":" + portText + tail == ip + [':'] + portText + tail;
    FirstTwoPieces(ip, portText, tail, ':');
  }

  /** Round trip: an ip without ':' joined with the decimal text of any 32-bit port,
      optionally followed by further ':'-introduced text (which is ignored), derives
      exactly that ip and port. */
  lemma AddressRoundTrip(ip: string, port: int, tail: string)
    requires ':' !in ip && InI32(port)
    requires tail == [] || tail[0] == ':'
    ensures InstanceFromServerAddr(ip + ":" + ShowInt(port) + tail)
      == Success(ServiceInstance(ip, port))
  {
    ShowIntHasNoSeparator(port, ':');
    ParseShowI32(port);
    PortTextDecides(ip, ShowInt(port), tail);
  }

  /** A port text that does not parse is rejected, before any registry call, whatever
      follows a second ':'. */
  lemma UnparseablePortRejected(host: string, port: string, tail: string)
    requires ':' !in host && ':' !in port
    requires tail == [] || tail[0] == ':'
    requires ParseI32(port).None?
    ensures InstanceFromServerAddr(host + ":" + port + tail) == Failure(InvalidPort(port))
  {
    PortTextDecides(host, port, tail);
  }

  /** An empty or non-numeric port is rejected, whatever the host. */
  lemma MalformedPortsRejected(host: string)
    requires ':' !in host
    ensures InstanceFromServerAddr(host + ":") == Failure(InvalidPort(""))
    ensures InstanceFromServerAddr(host + ":abc") == Failure(InvalidPort("abc"))
  {
    UnparseablePortRejected(host, "", []);
    assert host + ":" + "" + [] == host + ":";
    ParseRejectsNonDigit("abc", 0);
    UnparseablePortRejected(host, "abc", []);
    assert host + ":" + "abc" + [] == host + ":abc";
  }

  /** A port text with leading zeros, which `i32::from_str` accepts, gives its value. */
  lemma LeadingZerosPort(host: string)
    requires ':' !in host
    ensures InstanceFromServerAddr(host + ":0080") == Success(ServiceInstance(host, 80))
  {
    assert host + ":0080" == host + ":" + "0080" + [];
    LeadingZerosParse();
    PortTextDecides(host, "0080", []);
  }

  /** A port text with a leading '+', which `i32::from_str` accepts, gives its value. */
  lemma PlusSignPort(host: string)
    requires ':' !in host
    ensures InstanceFromServerAddr(host + ":+80") == Success(ServiceInstance(host, 80))
  {
    assert host + ":+80" == host + ":" + "+80" + [];
    PlusSignParse();
    PortTextDecides(host, "+80", []);
  }

  /** A port text that is only a sign is rejected. */
  lemma SignOnlyPortRejected(host: string)
    requires ':' !in host
    ensures InstanceFromServerAddr(host + ":+") == Failure(InvalidPort("+"))
    ensures InstanceFromServerAddr(host + ":-") == Failure(InvalidPort("-"))
  {
    assert host + ":+" == host + ":" + "+" + [];
    ParseSingleChar("+");
    UnparseablePortRejected(host, "+", []);
    assert host + ":-" == host + ":" + "-" + [];
    ParseSingleChar("-");
    UnparseablePortRejected(host, "-", []);
  }

  /** A second ':' cuts the port text short: only the text before it is parsed. */
  lemma SecondColonCutsPort(host: string)
    requires ':' !in host
    ensures InstanceFromServerAddr(host + ":abc:1") == Failure(InvalidPort("abc"))
  {
    ParseRejectsNonDigit("abc", 0);
    PortTextDecides(host, "abc", ":1");
    assert host + ":" + "abc" + ":1" == host + ":abc:1";
  }

  lemma LeadingZerosParse()
    ensures ParseI32("0080") == Some(80)
  {
    assert DigitsValue("0080") == 80 by {
      assert "0080"[..3] == "008" && "008"[..2] == "00" && "00"[..1] == "0" && "0"[..0] == "";
      assert DigitsValue("00") == 0;
    }
  }

  lemma PlusSignParse()
    ensures ParseI32("+80") == Some(80)
  {
    assert DigitsValue("80") == 80 by {
      assert "80"[..1] == "8" && "8"[..0] == "";
    }
    assert "+80"[1..] == "80";
  }

  /** The shared shape of registration and deregistration: derive the instance from
      the server address and, only when that succeeds, issue one call for it under
      `serviceName` with no group. An invalid port is reported as such and nothing is
      sent; a registry failure is reported with the registry's text. */
  function CallForDerivedInstance(serviceName: string, serverAddr: string, call: RegistryCall): (a: Attempt)
    ensures a.issued.Some? <==> InstanceFromServerAddr(serverAddr).Success?
    ensures a.issued.Some? ==>
      a.issued.value == Registration(serviceName, None, InstanceFromServerAddr(serverAddr).value)
    ensures a.issued.None? ==> a.result == Failure(InstanceFromServerAddr(serverAddr).error)
    ensures a.result.Success? <==> a.issued.Some? && call(a.issued.value).Success?
    ensures a.issued.Some? && call(a.issued.value).Failure? ==>
      a.result == Failure(RegistryFailure(call(a.issued.value).error))
  {
    match InstanceFromServerAddr(serverAddr)
    case Failure(e) => Attempt(None, Failure(e))
    case Success(instance) =>
      var registration := Registration(serviceName, None, instance);
      match call(registration)
      case Success(_) => Attempt(Some(registration), Success(()))
      case Failure(d) => Attempt(Some(registration), Failure(RegistryFailure(d)))
  }

  /** `register_nacos_instance`: registers the derived instance under the application
      name with no group; an invalid port fails before the registry is called. */
  function RegisterInstance(c: Config, id: NacosIdentity, register: RegistryCall): (a: Attempt)
    ensures a.issued.Some? <==> InstanceFromServerAddr(c.serverAddr).Success?
    ensures a.issued.Some? ==>
      a.issued.value == Registration(id.appName, None, InstanceFromServerAddr(c.serverAddr).value)
    ensures a.result.Success? <==> a.issued.Some? && register(a.issued.value).Success?
  {
    CallForDerivedInstance(id.appName, c.serverAddr, register)
  }

  /** `deregister_nacos_instance`: the same derivation, sent to the deregister call. */
  function DeregisterInstance(c: Config, id: NacosIdentity, deregister: RegistryCall): (a: Attempt)
    ensures a.issued.Some? <==> InstanceFromServerAddr(c.serverAddr).Success?
    ensures a.issued.Some? ==>
      a.issued.value == Registration(id.appName, None, InstanceFromServerAddr(c.serverAddr).value)
    ensures a.result.Success? <==> a.issued.Some? && deregister(a.issued.value).Success?
  {
    CallForDerivedInstance(id.appName, c.serverAddr, deregister)
  }

  /** Deregistration removes exactly the instance registration added: both issue the
      same call, or neither issues one. */
  lemma RegisterDeregisterAgree(c: Config, id: NacosIdentity, register: RegistryCall, deregister: RegistryCall)
    ensures RegisterInstance(c, id, register).issued == DeregisterInstance(c, id, deregister).issued
  {
  }

  // ---------------------------------------------------------------------------
  // Configuration store and change listener
  // ---------------------------------------------------------------------------

  /** A change notification from the config center. */
  datatype ConfigResponse = ConfigResponse(dataId: string, group: string, content: string)

  /** `AppConfigChangeListener::notify`, with the spawned update applied in arrival
      order: content that parses replaces the stored configuration wholesale; content
      that does not leaves it untouched. The data id and group are never consulted. */
  function Notify(current: AppSpecificConfig, resp: ConfigResponse, parse: Parser): (next: AppSpecificConfig)
    ensures parse(resp.content).Success? ==> next == parse(resp.content).value
    ensures parse(resp.content).Failure? ==> next == current
  {
    match parse(resp.content)
    case Success(newConfig) => newConfig
    case Failure(_) => current
  }

  /** The store after a run of notifications, applied one by one in arrival order. It
      only ever holds the initial configuration or one a notification carried, and
      it holds the initial one whenever no notification parsed. */
  function Replay(initial: AppSpecificConfig, ns: seq<ConfigResponse>, parse: Parser): (r: AppSpecificConfig)
    ensures r == initial || exists i :: 0 <= i < |ns| && parse(ns[i].content) == Success(r)
    ensures (forall i :: 0 <= i < |ns| ==> parse(ns[i].content).Failure?) ==> r == initial
    decreases |ns|
  {
    if |ns| == 0 then initial else Replay(Notify(initial, ns[0], parse), ns[1..], parse)
  }

  /** Reference description of the store: the parse of the latest notification that
      parses, if any. */
  function LatestParsed(ns: seq<ConfigResponse>, parse: Parser): (r: Option<AppSpecificConfig>)
    ensures r.None? <==> forall i :: 0 <= i < |ns| ==> parse(ns[i].content).Failure?
    decreases |ns|
  {
    if |ns| == 0 then None
    else
      match parse(ns[|ns| - 1].content)
      case Success(c) => Some(c)
      case Failure(_) => LatestParsed(ns[..|ns| - 1], parse)
  }

  lemma {:induction false} ReplaySnoc(initial: AppSpecificConfig, ns: seq<ConfigResponse>, n: ConfigResponse, parse: Parser)
    ensures Replay(initial, ns + [n], parse) == Notify(Replay(initial, ns, parse), n, parse)
    decreases |ns|
  {
    if |ns| == 0 {
      assert ns + [n] == [n];
    } else {
      assert (ns + [n])[1..] == ns[1..] + [n];
      ReplaySnoc(Notify(initial, ns[0], parse), ns[1..], n, parse);
    }
  }

  /** Whatever notifications arrive, the store holds the latest successfully parsed
      configuration, or the initial one when none parsed: failed parses never
      overwrite, and nothing is merged. */
  lemma {:induction false} ReplayHoldsLatestParsed(initial: AppSpecificConfig, ns: seq<ConfigResponse>, parse: Parser)
    ensures Replay(initial, ns, parse) == LatestParsed(ns, parse).GetOr(initial)
    decreases |ns|
  {
    if |ns| > 0 {
      var front := ns[..|ns| - 1];
      var last := ns[|ns| - 1];
      assert ns == front + [last];
      ReplaySnoc(initial, front, last, parse);
      ReplayHoldsLatestParsed(initial, front, parse);
    }
  }

  /** The listener does not look at which document a notification names. */
  lemma NotifyIgnoresMetadata(current: AppSpecificConfig, a: ConfigResponse, b: ConfigResponse, parse: Parser)
    requires a.content == b.content
    ensures Notify(current, a, parse) == Notify(current, b, parse)
  {
  }
}

=== FILE: response.dfy ===
/** The uniform API envelope `{code, msg, data?}` (src/response.rs). */
module Response {
  import opened Wrappers

  type U16 = x: int | 0 <= x < 0x1_0000

  const SuccessCode: U16 := 0
  const SuccessMessage := "success"

  /** `ApiResponse<T>`: a business code, a message and optional data. */
  datatype ApiResponse<T> = ApiResponse(code: U16, msg: string, data: Option<T>)

  /** One serialised JSON member of an envelope. */
  datatype Field<T> = CodeField(code: U16) | MsgField(msg: string) | DataField(data: T)

  /** serde's rendering of the envelope: members in declaration order, and the `data`
      member skipped entirely (not rendered as null) when there is no data. */
  function Serialize<T>(r: ApiResponse<T>): (fs: seq<(string, Field<T>)>)
    ensures |fs| >= 2 && fs[0] == ("code", CodeField(r.code)) && fs[1] == ("msg", MsgField(r.msg))
    ensures r.data.None? ==> |fs| == 2
    ensures r.data.Some? ==> fs[2..] == [("data", DataField(r.data.value))]
  {
    [("code", CodeField(r.code)), ("msg", MsgField(r.msg))]
      + (if r.data.Some? then [("data", DataField(r.data.value))] else [])
  }

  /** The keys of the serialised object. */
  function Keys<T>(fields: seq<(string, Field<T>)>): seq<string>
  {
    seq(|fields|, i requires 0 <= i < |fields| => fields[i].0)
  }

  /** `data` appears in the output exactly when the envelope carries data, and then
      holds that data; `code` and `msg` are always the first two members. */
  lemma SerializeOmitsAbsentData<T>(r: ApiResponse<T>)
    ensures "data" in Keys(Serialize(r)) <==> r.data.Some?
    ensures r.data.Some? ==> Serialize(r)[2] == ("data", DataField(r.data.value))
    ensures Keys(Serialize(r))[..2] == ["code", "msg"]
  {
    var ks := Keys(Serialize(r));
    if r.data.None? {
      assert ks == ["code", "msg"];
    } else {
      assert ks == ["code", "msg", "data"];
    }
  }

  /** `ApiResponse::success(d)`: code 0, message "success", and the data present. */
  function Success<T>(d: T): (r: ApiResponse<T>)
    ensures r.data == Some(d)
    ensures r.code == SuccessCode && r.msg == SuccessMessage
  {
    ApiResponse(SuccessCode, SuccessMessage, Some(d))
  }

  /** `ApiResponse::error(code, msg)`: the caller's code and message verbatim, and no
      data. */
  function Error(code: U16, msg: string): (r: ApiResponse<()>)
    ensures r.data.None?
    ensures r.code == code && r.msg == msg
  {
    ApiResponse(code, msg, None)
  }

  /** A success envelope always serialises its data and an error envelope never does,
      whatever the data, code or message. */
  lemma SuccessAndErrorDataRendering<T>(d: T, code: U16, msg: string)
    ensures "data" in Keys(Serialize(Success(d)))
    ensures "data" !in Keys(Serialize(Error(code, msg)))
  {
    SerializeOmitsAbsentData(Success(d));
    SerializeOmitsAbsentData(Error(code, msg));
  }
}

=== FILE: service_client.dfy ===
/** The registry-aware HTTP client (src/clients/service_client.rs): resolve a healthy
    instance of a named service, call it over HTTP, and fold every way the call can go
    wrong after resolution into `InternalError`. Instance selection, sending and JSON
    decoding are caller-supplied functions. */
module ServiceClient {
  import opened Wrappers
  import opened Text
  import opened Errors

  datatype Method = Get | Post

  /** Query parameters as (name, value) pairs; the unit query `&()` is empty. */
  type Query = seq<(string, string)>

  /** What is handed to the HTTP client: method, URL, query and, for POST, the
      JSON-serialised body. */
  datatype HttpRequest = HttpRequest(verb: Method, url: string, query: Query, jsonBody: Option<string>)

  datatype HttpResponse = HttpResponse(status: int, body: string)

  /** The healthy instance the registry selected. */
  datatype Instance = Instance(ip: string, port: int)

  /** The arguments of the healthy-instance lookup. */
  datatype LookupKey = LookupKey(serviceName: string, group: Option<string>)

  /** The registry lookup (failing with the Nacos error's text) and the HTTP transport
      (failing with the transport error's text). */
  datatype Network = Network(
    selectHealthy: LookupKey -> Result<Instance, string>,
    send: HttpRequest -> Result<HttpResponse, string>)

  /** The JSON decoder for the expected response shape. */
  type Decoder<T> = string -> Result<T, string>

  /** One call: the lookup made, the request issued (none when the lookup failed), and
      the outcome. */
  datatype Exchange<T> = Exchange(lookup: LookupKey, sent: Option<HttpRequest>, result: Result<T, AppError>)

  /** `StatusCode::is_success`: the 2xx range. */
  predicate IsSuccessStatus(status: int) {
    200 <= status <= 299
  }

  function BaseUrl(i: Instance): string {
    "http://" + i.ip + ":" + ShowInt(i.port)
  }

  /** `discover_service_url`: `http://ip:port` of the selected instance, or the
      registry's error as a Nacos error. */
  function DiscoverServiceUrl(net: Network, key: LookupKey): (r: Result<string, AppError>)
    ensures net.selectHealthy(key).Failure? ==> r == Failure(Nacos(net.selectHealthy(key).error))
    ensures net.selectHealthy(key).Success? ==> r == Success(BaseUrl(net.selectHealthy(key).value))
  {
    match net.selectHealthy(key)
    case Failure(e) => Failure(Nacos(e))
    case Success(instance) => Success(BaseUrl(instance))
  }

  /** After the scheme, the base URL splits at ':' into the ip and the port's text. */
  lemma BaseUrlPieces(i: Instance)
    requires ':' !in i.ip
    ensures var parts := Split(BaseUrl(i)[7..], ':');
      |parts| >= 2 && parts[0] == i.ip && parts[1] == ShowInt(i.port)
  {
    assert BaseUrl(i)[7..] == i.ip + [':'] + ShowInt(i.port) + [];
    ShowIntHasNoSeparator(i.port, ':');
    FirstTwoPieces(i.ip, ShowInt(i.port), [], ':');
  }

  /** The base URL names its instance unambiguously when the ip has no ':'. */
  lemma BaseUrlDeterminesInstance(a: Instance, b: Instance)
    requires ':' !in a.ip && ':' !in b.ip
    requires BaseUrl(a) == BaseUrl(b)
    ensures a == b
  {
    BaseUrlPieces(a);
    BaseUrlPieces(b);
    ShowIntInjective(a.port, b.port);
  }

  function TransportFailureMessage(serviceName: string, detail: string): string {
    "Failed to call service " + serviceName + ": " + detail
  }

  function DecodeFailureMessage(serviceName: string, detail: string): string {
    "Failed to parse response from " + serviceName + ": " + detail
  }

  function StatusFailureMessage(serviceName: string, path: string, status: int): string {
    "上游服务 '" + serviceName + "' (路径: '" + path + "') 返回状态码 " + ShowInt(status)
  }

  /** What a sent request comes to, shared by GET and POST: a transport failure, a
      non-2xx status and an undecodable 2xx body each become `InternalError` (the last
      two naming the service, the status one also the path and status; the upstream
      body is never surfaced); a decodable 2xx body is the result. */
  function Classify<T(==)>(serviceName: string, path: string, sent: Result<HttpResponse, string>, decode: Decoder<T>): (r: Result<T, AppError>)
    ensures r.Failure? ==> r.error.InternalError?
    ensures r.Success? <==>
      sent.Success? && IsSuccessStatus(sent.value.status) && decode(sent.value.body).Success?
    ensures r.Success? ==> r.value == decode(sent.value.body).value
    ensures sent.Failure? ==> r == Failure(InternalError(TransportFailureMessage(serviceName, sent.error)))
    ensures sent.Success? && !IsSuccessStatus(sent.value.status) ==>
      r == Failure(InternalError(StatusFailureMessage(serviceName, path, sent.value.status)))
    ensures sent.Success? && IsSuccessStatus(sent.value.status) && decode(sent.value.body).Failure? ==>
      r == Failure(InternalError(DecodeFailureMessage(serviceName, decode(sent.value.body).error)))
  {
    match sent
    case Failure(e) => Failure(InternalError(TransportFailureMessage(serviceName, e)))
    case Success(response) =>
      if IsSuccessStatus(response.status) then
        match decode(response.body)
        case Success(data) => Success(data)
        case Failure(e) => Failure(InternalError(DecodeFailureMessage(serviceName, e)))
      else
        Failure(InternalError(StatusFailureMessage(serviceName, path, response.status)))
  }

  /** A non-2xx outcome depends only on the status, never on the body sent with it. */
  lemma StatusFailureIgnoresBody<T>(serviceName: string, path: string, status: int, b1: string, b2: string, decode: Decoder<T>)
    requires !IsSuccessStatus(status)
    ensures Classify(serviceName, path, Success(HttpResponse(status, b1)), decode)
      == Classify(serviceName, path, Success(HttpResponse(status, b2)), decode)
  {
  }

  /** What one registry-aware call does, stated declaratively: it looks up `key`; when
      the lookup fails it returns the Nacos error and sends nothing; otherwise it sends
      exactly one request, `verb` to the selected instance's base URL followed by
      `path`, with the given query and body, and classifies the transport's answer. */
  predicate IsCall<T(==)>(x: Exchange<T>, net: Network, decode: Decoder<T>, key: LookupKey, verb: Method, path: string, query: Query, jsonBody: Option<string>)
  {
    && x.lookup == key
    && (x.sent.None? <==> net.selectHealthy(key).Failure?)
    && (net.selectHealthy(key).Failure? ==> x.result == Failure(Nacos(net.selectHealthy(key).error)))
    && (net.selectHealthy(key).Success? ==>
          && x.sent == Some(HttpRequest(verb, BaseUrl(net.selectHealthy(key).value) + path, query, jsonBody))
          && x.result == Classify(key.serviceName, path, net.send(x.sent.value), decode))
  }

  /** `get_service_with_group`: look up a healthy instance of `serviceName` in `group`,
      then GET `base + path` with the query. */
  function GetServiceWithGroup<T(==)>(net: Network, decode: Decoder<T>, serviceName: string, group: Option<string>, path: string, query: Query): (x: Exchange<T>)
    ensures IsCall(x, net, decode, LookupKey(serviceName, group), Get, path, query, None)
  {
    var key := LookupKey(serviceName, group);
    match DiscoverServiceUrl(net, key)
    case Failure(e) => Exchange(key, None, Failure(e))
    case Success(baseUrl) =>
      var request := HttpRequest(Get, baseUrl + path, query, None);
      Exchange(key, Some(request), Classify(serviceName, path, net.send(request), decode))
  }

  /** `post_service_with_group`: as the GET, with the JSON body attached. */
  function PostServiceWithGroup<T(==)>(net: Network, decode: Decoder<T>, serviceName: string, group: Option<string>, path: string, query: Query, jsonBody: string): (x: Exchange<T>)
    ensures IsCall(x, net, decode, LookupKey(serviceName, group), Post, path, query, Some(jsonBody))
  {
    var key := LookupKey(serviceName, group);
    match DiscoverServiceUrl(net, key)
    case Failure(e) => Exchange(key, None, Failure(e))
    case Success(baseUrl) =>
      var request := HttpRequest(Post, baseUrl + path, query, Some(jsonBody));
      Exchange(key, Some(request), Classify(serviceName, path, net.send(request), decode))
  }

  /** GET and POST differ only in the method and the body they send: they look up the
      same instance, target the same URL with the same query, and, whenever the
      transport answers both requests alike, come to the same result. */
  lemma GetAndPostClassifyAlike<T>(net: Network, decode: Decoder<T>, serviceName: string, group: Option<string>, path: string, query: Query, jsonBody: string)
    ensures var g := GetServiceWithGroup(net, decode, serviceName, group, path, query);
      var p := PostServiceWithGroup(net, decode, serviceName, group, path, query, jsonBody);
      && g.lookup == p.lookup
      && g.sent.Some? == p.sent.Some?
      && (g.sent.Some? ==> p.sent.value == g.sent.value.(verb := Post, jsonBody := Some(jsonBody)))
      && (g.sent.None? || net.send(g.sent.value) == net.send(p.sent.value) ==> g.result == p.result)
  {
  }

  /** `get_service`: default group, no query. */
  function GetService<T(==)>(net: Network, decode: Decoder<T>, serviceName: string, path: string): (x: Exchange<T>)
    ensures IsCall(x, net, decode, LookupKey(serviceName, None), Get, path, [], None)
  {
    GetServiceWithGroup(net, decode, serviceName, None, path, [])
  }

  /** `get_service_with_query`: default group. */
  function GetServiceWithQuery<T(==)>(net: Network, decode: Decoder<T>, serviceName: string, path: string, query: Query): (x: Exchange<T>)
    ensures IsCall(x, net, decode, LookupKey(serviceName, None), Get, path, query, None)
  {
    GetServiceWithGroup(net, decode, serviceName, None, path, query)
  }

  /** `post_service`: default group, no query. */
  function PostService<T(==)>(net: Network, decode: Decoder<T>, serviceName: string, path: string, jsonBody: string): (x: Exchange<T>)
    ensures IsCall(x, net, decode, LookupKey(serviceName, None), Post, path, [], Some(jsonBody))
  {
    PostServiceWithGroup(net, decode, serviceName, None, path, [], jsonBody)
  }

  /** `post_service_with_query`: default group. */
  function PostServiceWithQuery<T(==)>(net: Network, decode: Decoder<T>, serviceName: string, path: string, query: Query, jsonBody: string): (x: Exchange<T>)
    ensures IsCall(x, net, decode, LookupKey(serviceName, None), Post, path, query, Some(jsonBody))
  {
    PostServiceWithGroup(net, decode, serviceName, None, path, query, jsonBody)
  }
}

=== FILE: text.dfy ===
/** The handful of Rust standard-library string operations the service relies on,
    written out so that their edge cases are explicit: `str::split` on a character,
    `str::starts_with`, `i32`/`i64` `Display`, and `str::parse::<i32>()`. */
module Text {
  import opened Wrappers

  const I32Min: int := -0x8000_0000
  const I32Max: int := 0x7FFF_FFFF

  predicate InI32(n: int) {
    I32Min <= n <= I32Max
  }

  // ---------------------------------------------------------------------------
  // str::split(sep)
  // ---------------------------------------------------------------------------

  /** `s.split(sep).collect::<Vec<&str>>()`: the maximal `sep`-free pieces of `s`, in
      order. There is always at least one piece (the empty string splits into `[""]`),
      the first piece is the text before the first `sep`, and the remaining pieces are
      the split of the text after it. */
  function Split(s: string, sep: char): (parts: seq<string>)
    ensures |parts| >= 1
    ensures forall i :: 0 <= i < |parts| ==> sep !in parts[i]
    ensures parts[0] <= s
    ensures |parts[0]| < |s| ==> s[|parts[0]|] == sep
    ensures |parts| == 1 <==> sep !in s
    decreases |s|
  {
    if |s| == 0 then [""]
    else if s[0] == sep then [""] + Split(s[1..], sep)
    else
      var rest := Split(s[1..], sep);
      [[s[0]] + rest[0]] + rest[1..]
  }

  /** `parts.join(&sep.to_string())`, the inverse of Split. */
  function Join(parts: seq<string>, sep: char): string
    requires |parts| >= 1
    decreases |parts|
  {
    if |parts| == 1 then parts[0] else parts[0] + [sep] + Join(parts[1..], sep)
  }

  lemma JoinCons(p: string, rest: seq<string>, sep: char)
    requires |rest| >= 1
    ensures Join([p] + rest, sep) == p + [sep] + Join(rest, sep)
  {
    assert ([p] + rest)[1..] == rest;
  }

  lemma JoinExtendHead(c: char, parts: seq<string>, sep: char)
    requires |parts| >= 1
    ensures Join([[c] + parts[0]] + parts[1..], sep) == [c] + Join(parts, sep)
  {
    if |parts| > 1 {
      JoinCons([c] + parts[0], parts[1..], sep);
    }
  }

  /** Splitting loses nothing: joining the pieces back with the separator gives the
      original text. */
  lemma {:induction false} JoinSplit(s: string, sep: char)
    ensures Join(Split(s, sep), sep) == s
    decreases |s|
  {
    if |s| > 0 {
      var rest := Split(s[1..], sep);
      JoinSplit(s[1..], sep);
      if s[0] == sep {
        JoinCons("", rest, sep);
      } else {
        JoinExtendHead(s[0], rest, sep);
      }
      assert s == [s[0]] + s[1..];
    }
  }

  /** The pieces after the first are the split of the text after the first separator:
      the second piece is the text between the first and second separators. */
  lemma {:induction false} SplitTail(s: string, sep: char)
    requires sep in s
    ensures var k := |Split(s, sep)[0]|;
      k < |s| && Split(s, sep)[1..] == Split(s[k + 1..], sep)
    decreases |s|
  {
    if s[0] == sep {
    } else {
      SplitTail(s[1..], sep);
      assert s[1..][|Split(s[1..], sep)[0]| + 1..] == s[|Split(s, sep)[0]| + 1..];
    }
  }

  /** The first piece of a split is the prefix that ends at the first separator. */
  lemma FirstPieceIs(s: string, head: string, sep: char)
    requires head <= s && sep !in head && (|head| == |s| || s[|head|] == sep)
    ensures Split(s, sep)[0] == head
  {
  }

  /** In `head sep second` followed by nothing or by more separator-introduced text,
      the split's first two pieces are `head` and `second`. */
  lemma FirstTwoPieces(head: string, second: string, tail: string, sep: char)
    requires sep !in head && sep !in second
    requires tail == [] || tail[0] == sep
    ensures var parts := Split(head + [sep] + second + tail, sep);
      |parts| >= 2 && parts[0] == head && parts[1] == second
  {
    var rest := second + tail;
    var s := head + [sep] + second + tail;
    assert s == head + ([sep] + rest);
    FirstPieceIs(s, head, sep);
    SplitTail(s, sep);
    assert s[|head| + 1..] == rest;
    FirstPieceIs(rest, second, sep);
  }

  // ---------------------------------------------------------------------------
  // str::starts_with and slicing
  // ---------------------------------------------------------------------------

  predicate StartsWith(s: string, prefix: string) {
    |prefix| <= |s| && s[..|prefix|] == prefix
  }

  // ---------------------------------------------------------------------------
  // Decimal Display of integers
  // ---------------------------------------------------------------------------

  predicate IsDigit(c: char) {
    '0' <= c <= '9'
  }

  predicate AllDigits(s: string) {
    forall i :: 0 <= i < |s| ==> IsDigit(s[i])
  }

  function DigitChar(d: nat): (c: char)
    requires d < 10
    ensures IsDigit(c)
  {
    ['0', '1', '2', '3', '4', '5', '6', '7', '8', '9'][d]
  }

  function DigitOf(c: char): (d: nat)
    requires IsDigit(c)
    ensures d < 10
  {
    (c - '0') as nat
  }

  /** The value of a run of decimal digits, most significant first (leading zeros
      allowed, as in Rust's integer parser). */
  function DigitsValue(s: string): nat
    requires AllDigits(s)
    decreases |s|
  {
    if |s| == 0 then 0 else DigitsValue(s[..|s| - 1]) * 10 + DigitOf(s[|s| - 1])
  }

  /** Canonical decimal text of a natural number: digits only, never empty, and no
      leading zero except for "0" itself. */
  function ShowNat(n: nat): (s: string)
    ensures 1 <= |s|
    ensures AllDigits(s)
    ensures |s| > 1 ==> s[0] != '0'
    decreases n
  {
    if n < 10 then [DigitChar(n)] else ShowNat(n / 10) + [DigitChar(n % 10)]
  }

  /** `format!("{}", n)` for a signed integer: a minus sign for negatives. */
  function ShowInt(n: int): (s: string)
    ensures 1 <= |s|
    ensures n < 0 <==> s[0] == '-'
  {
    if n < 0 then "-" + ShowNat(-n) else ShowNat(n)
  }

  lemma {:induction false} DigitsValueShowNat(n: nat)
    ensures DigitsValue(ShowNat(n)) == n
    decreases n
  {
    if n >= 10 {
      var s := ShowNat(n);
      DigitsValueShowNat(n / 10);
      assert s[..|s| - 1] == ShowNat(n / 10);
      assert DigitOf(DigitChar(n % 10)) == n % 10 by {
        DigitRoundTrip(n % 10);
      }
    } else {
      DigitRoundTrip(n);
    }
  }

  lemma DigitRoundTrip(d: nat)
    requires d < 10
    ensures DigitOf(DigitChar(d)) == d
  {
  }

  /** Decimal text contains nothing but digits and a leading minus sign. */
  lemma ShowIntHasNoSeparator(n: int, sep: char)
    requires !IsDigit(sep) && sep != '-'
    ensures sep !in ShowInt(n)
  {
    var s := ShowInt(n);
    if n < 0 {
      assert forall i :: 1 <= i < |s| ==> s[i] == ShowNat(-n)[i - 1];
    }
  }

  // ---------------------------------------------------------------------------
  // str::parse::<i32>()
  // ---------------------------------------------------------------------------

  /** Rust's `i32::from_str`: an optional `+` or `-`, then at least one decimal digit
      and nothing else (no whitespace), and the value must fit in 32 bits. The error
      kind (empty, invalid digit, overflow) is not distinguished. */
  function ParseI32(s: string): (r: Option<int>)
    ensures r.Some? ==> InI32(r.value)
    ensures |s| == 0 ==> r.None?
    ensures r.Some? && AllDigits(s) ==> r.value == DigitsValue(s)
    ensures |s| > 0 && AllDigits(s) && DigitsValue(s) <= I32Max ==> r == Some(DigitsValue(s))
    ensures |s| > 1 && s[0] == '+' && AllDigits(s[1..]) && DigitsValue(s[1..]) <= I32Max ==>
      r == Some(DigitsValue(s[1..]))
    ensures |s| > 1 && s[0] == '-' && AllDigits(s[1..]) && DigitsValue(s[1..]) <= -I32Min ==>
      r == Some(-(DigitsValue(s[1..]) as int))
    ensures |s| > 1 && s[0] == '+' && AllDigits(s[1..]) ==> (r.Some? <==> DigitsValue(s[1..]) <= I32Max)
    ensures |s| > 1 && s[0] == '-' && AllDigits(s[1..]) ==> (r.Some? <==> DigitsValue(s[1..]) <= -I32Min)
  {
    if |s| == 0 then None
    else
      var negative := s[0] == '-';
      var digits := if s[0] == '-' || s[0] == '+' then s[1..] else s;
      if |digits| == 0 || !AllDigits(digits) then None
      else
        var v := if negative then -(DigitsValue(digits) as int) else DigitsValue(digits);
        if InI32(v) then Some(v) else None
  }

  /** A one-character text parses iff it is a digit: a lone sign is rejected. */
  lemma ParseSingleChar(s: string)
    requires |s| == 1
    ensures ParseI32(s).Some? <==> IsDigit(s[0])
    ensures IsDigit(s[0]) ==> ParseI32(s) == Some(DigitOf(s[0]))
  {
    assert s[..0] == [];
    if IsDigit(s[0]) {
      assert DigitsValue(s) == DigitOf(s[0]);
    }
  }

  /** Parsing the Display text of any 32-bit value gives the value back. */
  lemma ParseShowI32(n: int)
    requires InI32(n)
    ensures ParseI32(ShowInt(n)) == Some(n)
  {
    var s := ShowInt(n);
    if n < 0 {
      var m: nat := -n;
      DigitsValueShowNat(m);
      assert s == "-" + ShowNat(m);
      assert s[1..] == ShowNat(m);
      assert s[0] == '-';
    } else {
      DigitsValueShowNat(n);
      assert s == ShowNat(n);
      assert s[0] != '-' && s[0] != '+';
    }
  }

  /** A text containing a character that is neither a digit nor a leading sign never
      parses. */
  lemma ParseRejectsNonDigit(s: string, i: nat)
    requires i < |s| && !IsDigit(s[i]) && (i > 0 || (s[i] != '+' && s[i] != '-'))
    ensures ParseI32(s).None?
  {
    if s[0] == '-' || s[0] == '+' {
      assert s[1..][i - 1] == s[i];
    }
  }

  /** Distinct natural numbers have distinct decimal texts. */
  lemma ShowNatInjective(m: nat, n: nat)
    requires ShowNat(m) == ShowNat(n)
    ensures m == n
  {
    DigitsValueShowNat(m);
    DigitsValueShowNat(n);
  }

  /** Distinct integers have distinct decimal texts. */
  lemma ShowIntInjective(a: int, b: int)
    requires ShowInt(a) == ShowInt(b)
    ensures a == b
  {
    var sa := ShowInt(a);
    var sb := ShowInt(b);
    assert (a < 0) == (b < 0) by {
      assert sa[0] == sb[0];
    }
    if a < 0 {
      assert sa[1..] == ShowNat(-a);
      assert sb[1..] == ShowNat(-b);
      ShowNatInjective(-a, -b);
    } else {
      ShowNatInjective(a, b);
    }
  }
}

=== FILE: validated_json.dfy ===
/** The validating JSON extractor (src/utils/validated_json.rs): deserialise the body,
    then run the payload's declared validation rules, reporting either failure as an
    invalid-argument error. */
module ValidatedJson {
  import opened Wrappers
  import opened Errors

  const JsonFormatPrefix := "JSON 格式错误: "
  const InvalidParamsPrefix := "请求参数不合法: "

  /** One failed validation rule: the field and the rule's message. */
  datatype Violation = Violation(field: string, message: string)

  /** A payload type's validation rules: the violations of a value, none when valid. */
  type Validator<-T> = T -> seq<Violation>

  /** `ValidatedJson::from_request`, given the inner JSON extractor's outcome (the
      payload, or the rejection's text) and the rendering of validation errors: a
      rejection is an invalid argument prefixed "JSON 格式错误: "; a payload that breaks
      a rule is an invalid argument prefixed "请求参数不合法: "; a valid payload is
      returned unchanged. */
  function FromRequest<T>(extracted: Result<T, string>, validate: Validator<T>, render: seq<Violation> -> string): (r: Result<T, AppError>)
    ensures extracted.Failure? ==>
      r == Failure(Service(InvalidArgument(JsonFormatPrefix + extracted.error)))
    ensures extracted.Success? && validate(extracted.value) != [] ==>
      r == Failure(Service(InvalidArgument(InvalidParamsPrefix + render(validate(extracted.value)))))
    ensures r.Success? <==> extracted.Success? && validate(extracted.value) == []
    ensures r.Success? ==> r.value == extracted.value
  {
    match extracted
    case Failure(rejection) => Failure(Service(InvalidArgument(JsonFormatPrefix + rejection)))
    case Success(payload) =>
      var violations := validate(payload);
      if violations != [] then
        Failure(Service(InvalidArgument(InvalidParamsPrefix + render(violations))))
      else
        Success(payload)
  }

  /** Validation is consulted only for a payload that deserialised: a rejected body
      gives the same error whatever the rules are. */
  lemma RejectionIgnoresValidator<T>(rejection: string, v1: Validator<T>, v2: Validator<T>, render: seq<Violation> -> string)
    ensures FromRequest(Failure(rejection), v1, render) == FromRequest(Failure(rejection), v2, render)
  {
  }
}

=== FILE: wrappers.dfy ===
/** Failure-compatible Option and Result, the two shapes every fallible step of the
    service returns (Rust's `Option<T>` and `Result<T, E>`). */
module Wrappers {

  datatype Option<+T> = None | Some(value: T) {

    predicate IsFailure() {
      None?
    }

    function PropagateFailure<U>(): Option<U>
      requires None?
    {
      None
    }

    function Extract(): T
      requires Some?
    {
      value
    }

    /** Rust's `unwrap_or`: the carried value, or `default` when absent. */
    function GetOr(default: T): T {
      match this
      case Some(v) => v
      case None => default
    }

    /** Rust's `ok_or`: Success with the value, or Failure with `error` when absent. */
    function ToResult<E>(error: E): Result<T, E> {
      match this
      case Some(v) => Success(v)
      case None => Failure(error)
    }
  }

  datatype Result<+R, +E> = Success(value: R) | Failure(error: E) {

    predicate IsFailure() {
      Failure?
    }

    function PropagateFailure<U>(): Result<U, E>
      requires Failure?
    {
      Failure(error)
    }

    function Extract(): R
      requires Success?
    {
      value
    }
  }
}
